=== FILE: README.md ===
# Dependency graph builder, time-series search, working days, FX future data

A Dafny model of four pieces of the OpenGamma analytics platform:

- **The dependency graph builder** (`DependencyGraphBuilder`). This is the
  engine that resolves value requirements into a dependency graph. The model
  covers:
  - the two shared indices (requirement → resolving tasks, specification →
    producing tasks);
  - loop rejection and task memoisation in `resolveRequirement`;
  - the aggregating `RequirementResolver` and its one-time fallback;
  - the depth-bounded trampoline of the building context (`pump`,
    `resolved`, `failed`);
  - exception counting and merging;
  - the run queue, the background-job pool counter and a job's logical block;
  - `isGraphBuilt`, `pollDependencyGraph`, `cancelActiveBuild`,
    `setMaxAdditionalThreads` and the control flow of `getDependencyGraph`;
  - graph assembly.

  Concurrency is taken away: every atomic counter update, compare-and-swap
  and synchronized block is one sequential step. The builder is an immutable
  record (`BuilderState.Builder`). A thread's building context is a separate
  record (`BuilderState.Context`) that holds the call depth and the
  thread-local exception counts. The collaborators the builder calls
  (`ResolveTask` steps, pump bodies, callbacks) are function-typed
  parameters. They return the new state, or an exception that skips the
  depth decrement, as in Java.
- **Time-series search** (`TimeSeriesSearchRequest`): `matches`,
  `addIdentifier` and `setIdentifiers`. Wildcard matching and the
  validity of an identifier on a date are caller-supplied oracles.
- **Working-day adjustment** (`SecurityGenerator`): `isWorkday`,
  `nextWorkingDay` and `previousWorkingDay`. Dates are day numbers counted
  from 1970-01-01, a Thursday. The holiday source is an oracle.
- **FX future data** (`FXFutureDataBundle`): the constructor, the four
  "with" operations and `equals`. The superclass's constructor checks and
  its equality are oracles.

The main invariant (`BuilderInvariants.Inv`) has three parts:
- every indexed task is filed under its own requirement and has no repeated
  requirement in its ancestry;
- completed steps plus queued items never exceed scheduled steps;
- the active-job counter equals the number of background jobs holding a
  pool slot.

Each operation the model defines itself is proved to keep it:
- job start, queueing, the background-build loop, reconfiguration and
  cancellation;
- task lookup and creation, resolution, single and multiple root requests,
  the resolver's fallback and producer declaration;
- pump deferral, the caller's job registration, any job's exit, and the
  corrected block end.

A job step keeps it when the collaborator it runs does. An inline pump or
callback is the collaborator's own work and is not covered. The one
exception is the end of the caller's job as written; see Findings.

Differences between the code and its documentation. The model follows the
code in each case:
- The javadoc of `TimeSeriesSearchRequest` allows wildcards in the data
  source, data provider, data field and observation time. `matches`
  compares them with `equals`. Only `identifierValue` uses wildcard
  matching.
- `matches` documents that a null document yields false. The code reads
  the document only inside the test of a present criterion. So with no
  criterion set, a null document matches (true), and with any criterion set
  the first such test dereferences it and throws a `NullPointerException`.
  It never answers false. `TimeSeriesSearch.MatchesOrNull` models this.
- The public `getExceptions` of the builder documents `null` when there are
  no exceptions. The code returns an empty map when nothing was recorded.
  `Exceptions.GetExceptions` returns an empty map.

## Model

| member | source | states |
|---|---|---|
| GraphTypes.ChildAcyclic | projects/OG-Engine/src/com/opengamma/engine/depgraph/DependencyGraphBuilder.java:272-274 | a task created for a requirement its loop-free parent does not already have among its ancestors is itself loop-free |
| GraphTypes.AncestorResolvesChainRequirement | projects/OG-Engine/src/com/opengamma/engine/depgraph/DependencyGraphBuilder.java:292-293 | a task that is an ancestor of the dependent resolves a requirement in the dependent's ancestry |
| Indices.GetTasksResolving | projects/OG-Engine/src/com/opengamma/engine/depgraph/DependencyGraphBuilder.java:332-339 | the tasks indexed under the requirement, or the empty set when none was ever indexed |
| Indices.GetTasksProducing | projects/OG-Engine/src/com/opengamma/engine/depgraph/DependencyGraphBuilder.java:341-348 | the producers declared for the specification by task, or the empty map when none was declared |
| Indices.GetOrCreateTaskResolving | projects/OG-Engine/src/com/opengamma/engine/depgraph/DependencyGraphBuilder.java:311-330 | returns the task for (requirement, parent); it is indexed and queued (one more scheduled step) exactly when no equal task was indexed under the requirement, otherwise the builder is unchanged; on creation the only other changes are those of queueing one item (the completed steps, graph nodes, terminal outputs, exceptions and name stay as they were); afterwards the task is indexed |
| Indices.DeclareTaskProducing | projects/OG-Engine/src/com/opengamma/engine/depgraph/DependencyGraphBuilder.java:350-366 | the first producer declared for a (specification, task) pair is stored and returned; a later declaration gets the stored producer back and changes nothing |
| Indices.DeclareFirstClaimWins | projects/OG-Engine/src/com/opengamma/engine/depgraph/DependencyGraphBuilder.java:350-366 | two declarations for the same pair both return the first producer and the second leaves the state unchanged |
| Indices.IndicesOnlyGrow | projects/OG-Engine/src/com/opengamma/engine/depgraph/DependencyGraphBuilder.java:311-366 | neither index ever loses a task or rewrites a stored producer |
| Resolution.AddTask | projects/OG-Engine/src/com/opengamma/engine/depgraph/DependencyGraphBuilder.java:80-84 | a task joins the resolver's set and is counted as pending only if it was not already a member |
| Resolution.NewResolver | projects/OG-Engine/src/com/opengamma/engine/depgraph/DependencyGraphBuilder.java:74-78 | a new resolver for a requirement and parent task holds no member task and has no pending members |
| Resolution.AddTasksCountsEachOnce | projects/OG-Engine/src/com/opengamma/engine/depgraph/DependencyGraphBuilder.java:80-84 | offering any sequence of tasks adds exactly their set, and the pending count grows by the number of new members |
| Resolution.Finished | projects/OG-Engine/src/com/opengamma/engine/depgraph/DependencyGraphBuilder.java:87-107 | with no pending member the counter flips to -1 and the canonical task is fetched or created; it becomes a fallback member only if not already one; otherwise nothing changes |
| Resolution.NoFallbackAfterFlip | projects/OG-Engine/src/com/opengamma/engine/depgraph/DependencyGraphBuilder.java:87-94 | once the counter is negative, no call to finished adds a fallback |
| Resolution.FallbackAtMostOnce | projects/OG-Engine/src/com/opengamma/engine/depgraph/DependencyGraphBuilder.java:87-107 | however many times finished runs back to back on a resolver whose counter is not positive, at most one fallback task is added |
| Resolution.RunAddsFallbackAtMostOnce | projects/OG-Engine/src/com/opengamma/engine/depgraph/DependencyGraphBuilder.java:87-107 | over any sequence of member completions and finished calls, in any order, a resolver with a non-negative counter adds at most one fallback, and a flipped one adds none |
| Resolution.CountDownReachesFlip | projects/OG-Engine/src/com/opengamma/engine/depgraph/DependencyGraphBuilder.java:87-107 | once every pending member has completed, finished flips the counter to -1 and adds the canonical task as fallback exactly when it was not already a member |
| Resolution.ResolverFallsBackAtMostOnce | projects/OG-Engine/src/com/opengamma/engine/depgraph/DependencyGraphBuilder.java:87-107 | a resolver built by resolution adds at most one fallback over any sequence of events, and reaches the fallback point once all its members have completed |
| Resolution.ResolveRequirement | projects/OG-Engine/src/com/opengamma/engine/depgraph/DependencyGraphBuilder.java:272-309 | a requirement already in the dependent's ancestry yields a producer that only fails, with no state change; otherwise the usable indexed tasks are wrapped in a resolver (all pending, state unchanged) or, with none usable, the canonical task is fetched or created |
| Resolution.CollectResolver | projects/OG-Engine/src/com/opengamma/engine/depgraph/DependencyGraphBuilder.java:291-301 | the loop over the indexed tasks creates a resolver exactly when some task is usable, and it then holds exactly the usable tasks, each pending once |
| Resolution.LoopFailureAddCallback | projects/OG-Engine/src/com/opengamma/engine/depgraph/DependencyGraphBuilder.java:276-283 | adding a callback to a rejected loop tells it, inline, that the requirement failed, and returns to the caller's depth |
| Resolution.AddTarget | projects/OG-Engine/src/com/opengamma/engine/depgraph/DependencyGraphBuilder.java:538-545 | a root request never fails as a loop; afterwards the requirement has an indexed task, a direct answer is that indexed canonical task, a resolver wraps every task already indexed and leaves the index alone, and no indexed task is lost |
| Resolution.ResolveAll | projects/OG-Engine/src/com/opengamma/engine/depgraph/DependencyGraphBuilder.java:555-561 | after resolving root requests one by one, every requested requirement has an indexed task and no earlier indexed task is lost |
| Resolution.AddTargets | projects/OG-Engine/src/com/opengamma/engine/depgraph/DependencyGraphBuilder.java:555-564 | after a set of root requests every requested requirement has an indexed task, nothing indexed is lost, and the pool size is unchanged |
| Resolution.SecondResolutionReusesTask | projects/OG-Engine/src/com/opengamma/engine/depgraph/DependencyGraphBuilder.java:291-330 | a requirement resolved from two dependents creates and queues one canonical task; the second resolution wraps that task in a resolver and changes nothing |
| Trampoline.Pump | projects/OG-Engine/src/com/opengamma/engine/depgraph/DependencyGraphBuilder.java:218-226 | when the incremented depth exceeds 16 the pump is deferred as exactly one queued item and the context is unchanged; otherwise it runs inline and the depth returns to the entry depth unless the body throws |
| Trampoline.Resolved | projects/OG-Engine/src/com/opengamma/engine/depgraph/DependencyGraphBuilder.java:236-242 | the callback is told of the resolved value inline, one level deeper, and the depth is restored unless it throws |
| Trampoline.Failed | projects/OG-Engine/src/com/opengamma/engine/depgraph/DependencyGraphBuilder.java:250-256 | the callback is told of the failure inline, one level deeper, and the depth is restored unless it throws |
| Trampoline.ChainedPumpDefersOnce | projects/OG-Engine/src/com/opengamma/engine/depgraph/DependencyGraphBuilder.java:218-226 | a chain of n nested pumps returns to the entry depth; it defers exactly one pump when it would nest past the bound, and queues nothing otherwise |
| Exceptions.RecordException | projects/OG-Engine/src/com/opengamma/engine/depgraph/DependencyGraphBuilder.java:258-270 | recording an exception creates the cache on first use, adds one to that exception's count and leaves every other count alone |
| Exceptions.MergeThreadContext | projects/OG-Engine/src/com/opengamma/engine/depgraph/DependencyGraphBuilder.java:370-384 | merging a thread's counts yields the union of the exceptions with their counts added |
| Exceptions.GetExceptions | projects/OG-Engine/src/com/opengamma/engine/depgraph/DependencyGraphBuilder.java:386-395 | the report holds exactly the recorded exceptions with their counts; no cache means an empty report |
| Exceptions.RepeatedExceptionReportedOnce | projects/OG-Engine/src/com/opengamma/engine/depgraph/DependencyGraphBuilder.java:258-270 | the same exception recorded n > 0 times is reported once, with count n |
| Exceptions.MergeOrderIrrelevant | projects/OG-Engine/src/com/opengamma/engine/depgraph/DependencyGraphBuilder.java:370-395 | the order in which thread contexts are merged does not change the report |
| Exceptions.MergeNothingReportsNothing | projects/OG-Engine/src/com/opengamma/engine/depgraph/DependencyGraphBuilder.java:370-395 | merging a context that recorded nothing into an empty accumulator reports nothing |
| Scheduling.StartBackgroundConstructionJob | projects/OG-Engine/src/com/opengamma/engine/depgraph/DependencyGraphBuilder.java:644-658 | a job is started exactly when the counter is below the maximum; it then claims one slot, never exceeding the maximum, and registers one fresh job; otherwise nothing changes |
| Scheduling.AddToRunQueue | projects/OG-Engine/src/com/opengamma/engine/depgraph/DependencyGraphBuilder.java:631-642 | the item is appended and one more step is scheduled; a job start is attempted only if the queue already held work |
| Scheduling.StartBackgroundBuild | projects/OG-Engine/src/com/opengamma/engine/depgraph/DependencyGraphBuilder.java:798-807 | the counter grows by the smaller of the queue length and the pool's headroom |
| Scheduling.SetMaxAdditionalThreads | projects/OG-Engine/src/com/opengamma/engine/depgraph/DependencyGraphBuilder.java:517-521 | a negative size is rejected; otherwise the size is stored and background jobs are started for queued work up to the new headroom |
| Scheduling.CancelActiveBuild | projects/OG-Engine/src/com/opengamma/engine/depgraph/DependencyGraphBuilder.java:784-792 | the pool size becomes zero, every active job is poisoned and the active set is emptied; the queue and the indices are untouched |
| Scheduling.BuildGraph | projects/OG-Engine/src/com/opengamma/engine/depgraph/DependencyGraphBuilder.java:733-741 | an empty queue means no work; otherwise the head item is removed and run, and a completed run counts one completed step |
| Scheduling.JobInnerStep | projects/OG-Engine/src/com/opengamma/engine/depgraph/DependencyGraphBuilder.java:679-688 | a step that returns normally continues the loop with the step's builder and context; an exception escaping a step is counted in the shared accumulator and ends the block; an empty queue ends the block unchanged |
| Scheduling.JobBlockEnd | projects/OG-Engine/src/com/opengamma/engine/depgraph/DependencyGraphBuilder.java:689-705 | as written: the context's exceptions are merged, one slot is released, and the job resumes exactly when work is queued, the counter is below the maximum and the job is not poisoned |
| Scheduling.JobBlockEndCorrected | projects/OG-Engine/src/com/opengamma/engine/depgraph/DependencyGraphBuilder.java:689-705 | the caller's job neither releases nor reclaims a slot; a background job behaves as written |
| Scheduling.CallerJobStart | projects/OG-Engine/src/com/opengamma/engine/depgraph/DependencyGraphBuilder.java:857-860 | the caller's job is registered as active without claiming a pool slot |
| Scheduling.JobExit | projects/OG-Engine/src/com/opengamma/engine/depgraph/DependencyGraphBuilder.java:707-709 | a stopping job leaves the active set and nothing else changes |
| Scheduling.IsGraphBuilt | projects/OG-Engine/src/com/opengamma/engine/depgraph/DependencyGraphBuilder.java:749-758 | the graph counts as built exactly when no job is registered and the run queue is empty; a registered job alone rules it out |
| GraphAssembly.CreateDependencyGraph | projects/OG-Engine/src/com/opengamma/engine/depgraph/DependencyGraphBuilder.java:893-901 | the graph has the configuration name, exactly the collected nodes and exactly the specifications the requests resolved to |
| GraphAssembly.GetValueRequirementMapping | projects/OG-Engine/src/com/opengamma/engine/depgraph/DependencyGraphBuilder.java:922-924 | a copy of the requirement-to-specification map of satisfied requests |
| GraphAssembly.GraphAgreesWithMapping | projects/OG-Engine/src/com/opengamma/engine/depgraph/DependencyGraphBuilder.java:893-924 | the graph's terminal outputs are the values of the mapping, and the graph depends only on nodes, mapping and name |
| GraphAssembly.GraphBuiltMeansQuiescent | projects/OG-Engine/src/com/opengamma/engine/depgraph/DependencyGraphBuilder.java:749-758 | the graph counts as built exactly when polling returns it; then no step remains to run, the caller stops and the graph is returned, and otherwise the caller still has queued work, or the queue is empty and other jobs are still registered, so the caller waits or reports not ready |
| GraphAssembly.PollDependencyGraph | projects/OG-Engine/src/com/opengamma/engine/depgraph/DependencyGraphBuilder.java:749-772 | a graph is returned exactly when no job is active and the queue is empty |
| GraphAssembly.CallerDecision | projects/OG-Engine/src/com/opengamma/engine/depgraph/DependencyGraphBuilder.java:862-884 | after its job the caller stops when no job is active, runs again when work is queued, otherwise waits or returns null as asked |
| GraphAssembly.FinishDependencyGraph | projects/OG-Engine/src/com/opengamma/engine/depgraph/DependencyGraphBuilder.java:886-890 | leaving the loop with work left is a cancellation; otherwise the graph is returned |
| GraphAssembly.DoneMeansGraphOrCancelled | projects/OG-Engine/src/com/opengamma/engine/depgraph/DependencyGraphBuilder.java:853-890 | when the caller stops, an empty queue yields the graph and a non-empty one the cancellation, never a partial graph |
| BuilderState.Initial | projects/OG-Engine/src/com/opengamma/engine/depgraph/DependencyGraphBuilder.java:399-417 | a new builder has empty indices, an empty queue, no jobs of any kind and a zero counter, no scheduled or completed steps, no graph nodes or terminal outputs, no exceptions, the given configuration name and the default pool size |
| BuilderState.FreshContext | projects/OG-Engine/src/com/opengamma/engine/depgraph/DependencyGraphBuilder.java:148-157 | a worker context as a job creates it starts at call depth zero with no exception recorded |
| BuilderInvariants.InitialInv | projects/OG-Engine/src/com/opengamma/engine/depgraph/DependencyGraphBuilder.java:399-417 | a new builder satisfies the invariant |
| BuilderInvariants.StartJobInv | projects/OG-Engine/src/com/opengamma/engine/depgraph/DependencyGraphBuilder.java:644-658 | starting a job keeps the index and the pool accounting sound, and never holds more slots than the maximum |
| BuilderInvariants.AddToRunQueueInv | projects/OG-Engine/src/com/opengamma/engine/depgraph/DependencyGraphBuilder.java:631-642 | queueing keeps the invariant |
| BuilderInvariants.StartJobsFromInv | projects/OG-Engine/src/com/opengamma/engine/depgraph/DependencyGraphBuilder.java:798-807 | the background-build loop keeps the invariant |
| BuilderInvariants.SetMaxInv | projects/OG-Engine/src/com/opengamma/engine/depgraph/DependencyGraphBuilder.java:517-521 | reconfiguring the pool keeps the invariant |
| BuilderInvariants.CancelInv | projects/OG-Engine/src/com/opengamma/engine/depgraph/DependencyGraphBuilder.java:784-792 | cancelling keeps the invariant and releases no slot |
| BuilderInvariants.GetOrCreateInv | projects/OG-Engine/src/com/opengamma/engine/depgraph/DependencyGraphBuilder.java:311-330 | fetching or creating a task for a loop-free parent keeps the invariant, and the task is loop-free |
| BuilderInvariants.ResolveRequirementInv | projects/OG-Engine/src/com/opengamma/engine/depgraph/DependencyGraphBuilder.java:272-309 | resolution never introduces a requirement loop: the invariant holds after it, a direct task is loop-free, and a resolver may safely fall back |
| BuilderInvariants.FinishedInv | projects/OG-Engine/src/com/opengamma/engine/depgraph/DependencyGraphBuilder.java:87-107 | the fallback of a sound resolver keeps the invariant |
| BuilderInvariants.NoIndexedTaskIsAncestor | projects/OG-Engine/src/com/opengamma/engine/depgraph/DependencyGraphBuilder.java:292-296 | on a sound index, once the requirement passes the loop check no indexed task is skipped as an ancestor |
| BuilderInvariants.DeclareInv | projects/OG-Engine/src/com/opengamma/engine/depgraph/DependencyGraphBuilder.java:350-366 | declaring a producer keeps the invariant |
| BuilderInvariants.PumpDeferralInv | projects/OG-Engine/src/com/opengamma/engine/depgraph/DependencyGraphBuilder.java:218-226 | deferring a pump keeps the invariant |
| BuilderInvariants.JobInnerStepInv | projects/OG-Engine/src/com/opengamma/engine/depgraph/DependencyGraphBuilder.java:679-688 | a job step keeps the invariant when the collaborator does, also when it throws |
| BuilderInvariants.CallerJobInv | projects/OG-Engine/src/com/opengamma/engine/depgraph/DependencyGraphBuilder.java:857-861 | registering the caller's job, and removing that same job again, each keep the invariant; the exit restores the active set |
| BuilderInvariants.JobExitInv | projects/OG-Engine/src/com/opengamma/engine/depgraph/DependencyGraphBuilder.java:707-709 | any job, background or the caller's own, leaving the active set keeps the invariants |
| BuilderInvariants.AddTargetInv | projects/OG-Engine/src/com/opengamma/engine/depgraph/DependencyGraphBuilder.java:538-545 | a root request keeps the invariant |
| BuilderInvariants.ResolveAllInv | projects/OG-Engine/src/com/opengamma/engine/depgraph/DependencyGraphBuilder.java:555-561 | resolving root requests one after another keeps the invariant |
| BuilderInvariants.AddTargetsInv | projects/OG-Engine/src/com/opengamma/engine/depgraph/DependencyGraphBuilder.java:555-564 | a set of root requests keeps the invariant |
| BuilderInvariants.JobBlockEndCorrectedInv | projects/OG-Engine/src/com/opengamma/engine/depgraph/DependencyGraphBuilder.java:689-705 | with the caller's job kept out of the pool accounting, the end of a block keeps the counter equal to the number of pooled jobs |
| BuilderInvariants.CallerJobLeaksPoolSlot | projects/OG-Engine/src/com/opengamma/engine/depgraph/DependencyGraphBuilder.java:853-861 | as written, the caller's job drives the counter to -1 and a later target starts a background job although the maximum is zero |
| BuilderInvariants.CallerJobKeepsPoolSound | projects/OG-Engine/src/com/opengamma/engine/depgraph/DependencyGraphBuilder.java:853-861 | with the corrected block end the same scenario keeps the invariant and starts no background job |
| TimeSeriesSearch.AnyListedAndValid | projects/OG-Master/src/com/opengamma/master/timeseries/TimeSeriesSearchRequest.java:225-236 | the identifier scan succeeds exactly when some document identifier is in the request's list and valid on the validity date |
| TimeSeriesSearch.EmptyRequest | projects/OG-Master/src/com/opengamma/master/timeseries/TimeSeriesSearchRequest.java:54-132 | a new request sets no criterion (so it matches every document), asks for all pages and loads nothing |
| TimeSeriesSearch.AnyValueMatches | projects/OG-Master/src/com/opengamma/master/timeseries/TimeSeriesSearchRequest.java:237-247 | the value scan succeeds exactly when some document identifier's value matches the pattern |
| TimeSeriesSearch.Matches | projects/OG-Master/src/com/opengamma/master/timeseries/TimeSeriesSearchRequest.java:210-249 | a match meets every present exact criterion, has some listed identifier valid on the date and some identifier value matching the pattern when those are asked for; a request without criteria matches |
| TimeSeriesSearch.MatchesIffAllCriteria | projects/OG-Master/src/com/opengamma/master/timeseries/TimeSeriesSearchRequest.java:210-249 | a document matches exactly when every criterion is absent or met: exact equality for id, source, provider, field and observation time, some listed valid identifier, some identifier value matching the pattern |
| TimeSeriesSearch.NoCriteriaMatchesEverything | projects/OG-Master/src/com/opengamma/master/timeseries/TimeSeriesSearchRequest.java:210-249 | a request with no criteria matches every document |
| TimeSeriesSearch.ExactMismatchRejects | projects/OG-Master/src/com/opengamma/master/timeseries/TimeSeriesSearchRequest.java:211-225 | a present exact criterion that differs from the document rejects it |
| TimeSeriesSearch.EmptyIdentifierListMatchesNothing | projects/OG-Master/src/com/opengamma/master/timeseries/TimeSeriesSearchRequest.java:225-236 | an empty identifier list matches no document, unlike an absent one |
| TimeSeriesSearch.NonCriteriaIgnored | projects/OG-Master/src/com/opengamma/master/timeseries/TimeSeriesSearchRequest.java:210-249 | paging, the data range and the load flags play no part in matching |
| TimeSeriesSearch.MatchesOrNull | projects/OG-Master/src/com/opengamma/master/timeseries/TimeSeriesSearchRequest.java:210-249 | on a null document: a dereference failure exactly when some criterion is present, otherwise true; on a document, the answer of `matches` |
| TimeSeriesSearch.NullDocumentAcceptedIffAllAccepted | projects/OG-Master/src/com/opengamma/master/timeseries/TimeSeriesSearchRequest.java:204-249 | a null document is accepted exactly when the request accepts every document, and is never rejected with false as the documentation says |
| TimeSeriesSearch.AddIdentifier | projects/OG-Master/src/com/opengamma/master/timeseries/TimeSeriesSearchRequest.java:158-164 | a null identifier is rejected; otherwise it is appended, creating the list when absent, and nothing else changes |
| TimeSeriesSearch.SetIdentifiers | projects/OG-Master/src/com/opengamma/master/timeseries/TimeSeriesSearchRequest.java:171-201 | a null collection is rejected; otherwise the list becomes exactly the given identifiers in order |
| TimeSeriesSearch.SetThenAdd | projects/OG-Master/src/com/opengamma/master/timeseries/TimeSeriesSearchRequest.java:158-201 | setting a list and then adding one identifier equals setting the longer list |
| TimeSeriesSearch.AddIdentifierWidens | projects/OG-Master/src/com/opengamma/master/timeseries/TimeSeriesSearchRequest.java:158-236 | adding to a present identifier list never loses a match |
| TimeSeriesSearch.SingleIdentifierRequest | projects/OG-Master/src/com/opengamma/master/timeseries/TimeSeriesSearchRequest.java:139-141 | a request built from one identifier matches exactly the documents carrying that identifier, valid on no particular date |
| WorkingDays.IsWorkday | projects/OG-Financial/src/com/opengamma/financial/generator/SecurityGenerator.java:188-191 | of the ISO days 1 to 7, exactly Saturday and Sunday are not workdays |
| WorkingDays.WorkdayIsMondayToFriday | projects/OG-Financial/src/com/opengamma/financial/generator/SecurityGenerator.java:188-191 | Monday to Friday are workdays, Saturday and Sunday are not, and the currency plays no part |
| WorkingDays.NextWorkingDay | projects/OG-Financial/src/com/opengamma/financial/generator/SecurityGenerator.java:205-210 | the result is the earliest date on or after the input that is a workday and not a holiday; every date strictly between is a weekend day or a holiday |
| WorkingDays.PreviousWorkingDay | projects/OG-Financial/src/com/opengamma/financial/generator/SecurityGenerator.java:220-225 | the result is the latest date on or before the input that is a workday and not a holiday; every date strictly between is a weekend day or a holiday |
| WorkingDays.NextWorkingDayUnique | projects/OG-Financial/src/com/opengamma/financial/generator/SecurityGenerator.java:197-210 | the next working day is unique, and a date that already qualifies is returned unchanged |
| WorkingDays.PreviousWorkingDayUnique | projects/OG-Financial/src/com/opengamma/financial/generator/SecurityGenerator.java:212-225 | the previous working day is unique, and a date that already qualifies is returned unchanged |
| WorkingDays.AdjustmentIdempotent | projects/OG-Financial/src/com/opengamma/financial/generator/SecurityGenerator.java:197-225 | an adjusted date is its own next and previous working day |
| WorkingDays.WeekendIsShort | projects/OG-Financial/src/com/opengamma/financial/generator/SecurityGenerator.java:188-191 | without holidays a working day lies within two days in either direction, so both adjustments terminate |
| WorkingDays.NextWorkingDayWithoutHolidays | projects/OG-Financial/src/com/opengamma/financial/generator/SecurityGenerator.java:188-210 | without holidays a weekday is kept, Saturday moves two days and Sunday one day forward, both to a Monday |
| WorkingDays.PreviousWorkingDayWithoutHolidays | projects/OG-Financial/src/com/opengamma/financial/generator/SecurityGenerator.java:188-225 | without holidays a weekday is kept, Saturday moves one day and Sunday two days back, both to a Friday |
| FXFutureData.New | src/com/opengamma/financial/model/future/definition/FXFutureDataBundle.java:19-24 | the bundle is built exactly when the superclass accepts its arguments and the foreign curve is not null, holding exactly the given values; a null foreign curve is rejected |
| FXFutureData.WithDiscountCurve | src/com/opengamma/financial/model/future/definition/FXFutureDataBundle.java:31-35 | a null curve is rejected, as is one the superclass refuses; success happens exactly otherwise, and then only the domestic curve changes |
| FXFutureData.WithForeignCurve | src/com/opengamma/financial/model/future/definition/FXFutureDataBundle.java:37-41 | a null curve is rejected, as is a bundle state the superclass refuses; success happens exactly otherwise, and then only the foreign curve changes |
| FXFutureData.WithSpot | src/com/opengamma/financial/model/future/definition/FXFutureDataBundle.java:44-48 | a negative spot is rejected, as is one the superclass refuses; success happens exactly otherwise, and then only the spot changes |
| FXFutureData.WithDate | src/com/opengamma/financial/model/future/definition/FXFutureDataBundle.java:51-55 | a null date is rejected, as is one the superclass refuses; success happens exactly otherwise, and then only the date changes |
| FXFutureData.Equals | src/com/opengamma/financial/model/future/definition/FXFutureDataBundle.java:76-90 | two bundles are equal exactly when the superclass calls them equal and their foreign curves are equal |
| FXFutureData.SpotSignBoundary | src/com/opengamma/financial/model/future/definition/FXFutureDataBundle.java:44-48 | a zero spot is accepted and every negative spot rejected |
| FXFutureData.LastWriteWins | src/com/opengamma/financial/model/future/definition/FXFutureDataBundle.java:37-48 | replacing the foreign curve or the spot twice keeps only the second value |
| FXFutureData.RestoringIsIdentity | src/com/opengamma/financial/model/future/definition/FXFutureDataBundle.java:31-55 | replacing any field by its current value returns the same bundle |
| FXFutureData.ForeignCurveCommutes | src/com/opengamma/financial/model/future/definition/FXFutureDataBundle.java:37-55 | replacing the foreign curve commutes with replacing the spot or the date |
| FXFutureData.EqualsDecidedByForeignCurve | src/com/opengamma/financial/model/future/definition/FXFutureDataBundle.java:76-90 | bundles with equal superclass state are equal exactly when their foreign curves are equal; others are never equal |
| FXFutureData.EqualsIsEquivalence | src/com/opengamma/financial/model/future/definition/FXFutureDataBundle.java:76-90 | equality is reflexive, symmetric and transitive when the superclass's and the curves' equalities are |
| FXFutureData.WithForeignCurveEquality | src/com/opengamma/financial/model/future/definition/FXFutureDataBundle.java:37-90 | with value equality for the superclass, a bundle with a replaced foreign curve equals the original exactly when the curves are equal |

## Left out

- Threads, the executor, the `_poison` flag races, the 100 ms sleep and the interrupt in `getDependencyGraph`. The model has no interleavings. `CallerDecision` returns `Wait` where the code sleeps.
- `addTargetImpl`: the deprecated latch-and-timeout compatibility path is thread- and clock-driven.
- The debug dump to `/tmp`, logging, the static default thread count taken from the runtime, and the object ids. These are I/O and process-wide state. `BuilderState.Initial` takes the default pool size as a parameter.
- `estimateBuildFraction`: a floating-point estimate with a placeholder value.
- `checkInjectedInputs` and the null checks on requirements. Collaborators are always present in the model.
- `ResolveTask` internals and `ResolveTask.hasParent` are not part of this model. A task's ancestry is the requirement chain of its parents, and `hasParent` holds for the task itself and for every ancestor.
- `AggregateResolvedValueProducer` is not part of this model. `addProducer` is taken to add one pending member, and `start`, the aggregate's own completion and value fan-out are not modelled.
- `AggregateResolvedValueProducer`'s count-down when a member task completes is taken to be `Resolution.MemberFinished`: one pending member less, never below zero. Its own calls to `finished` are taken to be any sequence of events (`Resolution.RunResolver`).
- Callback registration: `addCallback` of a task or resolver, and the terminal-values callback that `addTarget` registers, are not modelled. Only the rejected-loop producer's `addCallback` is.
- `Resolution.AddTargets` takes the requested set in some fixed order, since a Java set's iteration order is not fixed.
- The 64-bit wrap-around of `_scheduledSteps` and `_completedSteps`. The counts are unbounded.
- The inner compare-and-swap retry loops of `startBackgroundConstructionJob` and of a job's resume step. Each is taken as one step that succeeds.
- Scheduling.CancelActiveBuild: the counter is stated unchanged only when it is not negative. With a negative counter (see Findings) even a pool size of zero leaves headroom, and jobs are started.
- `WorkingDays.NextWorkingDay` and `WorkingDays.PreviousWorkingDay` require that a qualifying date exists in the direction of travel. The Java loops do not return normally otherwise. `WorkingDays.WeekendIsShort` shows that this always holds without holidays.
- Time zones and time of day of `ZonedDateTime`: a date is a day number.
- The superclass `FutureDataBundle` is not part of this model. Its constructor checks and `equals` are oracles, NaN spots are not modelled, `hashCode` is left out, and the `this == obj` shortcut of `equals` has no counterpart in a value model. The `_foreignCurve == null` branch of `equals` cannot arise because the constructor rejects a null foreign curve.
- GraphTypes.ChildTask: `ResolveTask.equals` is not part of this model. A task is taken to be equal to another exactly when both have the same requirement and the same chain of parent requirements. The "equal task already indexed" test in `getOrCreateTaskResolving` and the duplicate test of the resolver's task set (`Resolution.AddTask`) rest on this.
- Exceptions.RecordException: `ExceptionWrapper` is not part of this model. `createAndPut` and `incrementCount` are taken to key the cache by exception equality (kind and message), with a first occurrence stored at count 1 and each repeat adding one.
- The random helpers and the security-generation logic of `SecurityGenerator`.
- Null elements inside the collection given to `setIdentifiers`: the code checks only that the collection itself is not null, but a `seq<Identifier>` holds no nulls. A null element would never match a document identifier, so matching is unaffected.
- The bean property machinery of `TimeSeriesSearchRequest` (meta-bean, `propertyGet`/`propertySet`, `equals`, `hashCode`).

## Findings

| source | as written | input that shows it | evidently intended | confidence | as-written member | corrected member |
|---|---|---|---|---|---|---|
| projects/OG-Engine/src/com/opengamma/engine/depgraph/DependencyGraphBuilder.java:853-861 | `getDependencyGraph` runs the caller's job without incrementing `_activeJobCount`, but `Job.run` decrements it at the end of every logical block (line 692). | Maximum of 0 additional threads. Add one target, then call `getDependencyGraph`: the counter ends at -1. Add another target: `startBackgroundConstructionJob` sees -1 < 0 and starts a background job. | The caller's job should not release a pool slot it never claimed, so the counter stays equal to the number of pooled background jobs and never exceeds the maximum. | not executed | Scheduling.JobBlockEnd, BuilderInvariants.CallerJobLeaksPoolSlot | Scheduling.JobBlockEndCorrected, BuilderInvariants.JobBlockEndCorrectedInv, BuilderInvariants.CallerJobKeepsPoolSound |

=== FILE: builder_invariants.dfy ===
/** Invariants of the builder state and the proofs that every modelled
    operation keeps them:
    - the requirement index holds only loop-free tasks, filed under their own
      requirement;
    - completed steps plus queued items never exceed scheduled steps;
    - the active-job counter equals the number of background jobs holding a
      pool slot. */
module BuilderInvariants {
  import opened Wrappers
  import opened GraphTypes
  import opened BuilderState
  import opened Exceptions
  import opened Scheduling
  import opened Indices
  import opened Trampoline
  import opened Resolution

  predicate IndexSound(b: Builder) {
    forall r, t :: r in b.requirements && t in b.requirements[r] ==> t.requirement == r && Acyclic(t)
  }

  /** Scheduled steps not yet completed nor still queued; never negative. */
  function Slack(b: Builder): int {
    b.scheduledSteps - b.completedSteps - |b.runQueue|
  }

  predicate Accounted(b: Builder) {
    Slack(b) >= 0
  }

  predicate PoolSound(b: Builder) {
    && b.activeJobCount == |b.pooled|
    && b.pooled <= b.backgroundJobs
    && (forall j :: j in b.backgroundJobs ==> j < b.nextJobId)
    && (forall j :: j in b.activeJobs ==> j < b.nextJobId)
  }

  predicate Inv(b: Builder) {
    IndexSound(b) && Accounted(b) && PoolSound(b)
  }

  /** A resolver's parent may still get the canonical task as a child. */
  predicate ResolverSound(rr: RequirementResolver) {
    rr.parentTask.Some? ==> Acyclic(rr.parentTask.value) && !HasParentRequirement(rr.parentTask.value, rr.requirement)
  }

  /** A collaborator step that acts only through the builder's operations:
      it keeps the invariants and never loses track of a scheduled step. */
  ghost predicate StepRespectsInvariants(exec: (Builder, Context, Runnable) -> Outcome) {
    forall b, c, item :: IndexSound(b) && PoolSound(b) ==>
      var o := exec(b, c, item);
      IndexSound(o.builder) && PoolSound(o.builder) && Slack(o.builder) >= Slack(b)
  }

  lemma InitialInv(name: string, n: nat)
    ensures Inv(Initial(name, n))
  {
  }

  /** Starting a job keeps the counter sound and never fills the pool beyond
      the configured maximum. */
  lemma StartJobInv(b: Builder)
    requires IndexSound(b) && PoolSound(b)
    ensures IndexSound(StartBackgroundConstructionJob(b).0) && PoolSound(StartBackgroundConstructionJob(b).0)
    ensures StartBackgroundConstructionJob(b).1 ==> |StartBackgroundConstructionJob(b).0.pooled| <= b.maxAdditionalThreads
  {
    var (b1, started) := StartBackgroundConstructionJob(b);
    if started {
      assert b.nextJobId !in b.pooled;
      assert |b1.pooled| == |b.pooled| + 1;
    }
  }

  lemma AddToRunQueueInv(b: Builder, item: Runnable)
    requires Inv(b)
    ensures Inv(AddToRunQueue(b, item))
  {
    var queued := b.(runQueue := b.runQueue + [item]);
    if |b.runQueue| > 0 {
      StartJobInv(queued);
    }
  }

  lemma {:induction false} StartJobsFromInv(b: Builder, k: nat)
    requires Inv(b) && k <= |b.runQueue|
    ensures Inv(StartJobsFrom(b, k))
    decreases |b.runQueue| - k
  {
    if k < |b.runQueue| {
      var (b1, started) := StartBackgroundConstructionJob(b);
      StartJobInv(b);
      if started {
        StartJobsFromInv(b1, k + 1);
      }
    }
  }

  lemma SetMaxInv(b: Builder, n: int)
    requires Inv(b)
    ensures SetMaxAdditionalThreads(b, n).Success? ==> Inv(SetMaxAdditionalThreads(b, n).value)
  {
    if n >= 0 && |b.runQueue| > 0 {
      StartJobsFromInv(b.(maxAdditionalThreads := n), 0);
    }
  }

  /** Cancelling starts nothing and keeps every invariant. */
  lemma CancelInv(b: Builder)
    requires Inv(b)
    ensures Inv(CancelActiveBuild(b))
    ensures CancelActiveBuild(b).pooled == b.pooled
  {
    SetMaxInv(b, 0);
  }

  lemma GetOrCreateInv(b: Builder, r: Requirement, parent: Option<Task>)
    requires Inv(b)
    requires parent.Some? ==> Acyclic(parent.value) && !HasParentRequirement(parent.value, r)
    ensures Inv(GetOrCreateTaskResolving(b, r, parent).0)
    ensures Acyclic(GetOrCreateTaskResolving(b, r, parent).1)
  {
    var t := ChildTask(r, parent);
    ChildAcyclic(r, parent);
    if t !in GetTasksResolving(b, r) {
      var indexed := b.(requirements := b.requirements[r := GetTasksResolving(b, r) + {t}]);
      InsertKeepsIndexSound(b, r, t);
      AddToRunQueueInv(indexed, RunTask(t));
      assert GetOrCreateTaskResolving(b, r, parent).0 == AddToRunQueue(indexed, RunTask(t));
    }
  }

  /** Filing a loop-free task under its own requirement keeps the index sound. */
  lemma InsertKeepsIndexSound(b: Builder, r: Requirement, t: Task)
    requires IndexSound(b) && t.requirement == r && Acyclic(t)
    ensures IndexSound(b.(requirements := b.requirements[r := GetTasksResolving(b, r) + {t}]))
  {
  }

  /** Resolution never introduces a requirement loop: every task it indexes is
      loop-free, and a resolver it returns may safely fall back later. */
  lemma ResolveRequirementInv(b: Builder, r: Requirement, dependent: Option<Task>)
    requires Inv(b)
    requires dependent.Some? ==> Acyclic(dependent.value)
    ensures Inv(ResolveRequirement(b, r, dependent).0)
    ensures ResolveRequirement(b, r, dependent).1.Aggregate? ==> ResolverSound(ResolveRequirement(b, r, dependent).1.resolver)
    ensures ResolveRequirement(b, r, dependent).1.Direct? ==> Acyclic(ResolveRequirement(b, r, dependent).1.task)
  {
    if !(dependent.Some? && HasParentRequirement(dependent.value, r)) {
      GetOrCreateInv(b, r, dependent);
    }
  }

  lemma FinishedInv(b: Builder, rr: RequirementResolver)
    requires Inv(b) && ResolverSound(rr)
    ensures Inv(Finished(b, rr).0) && ResolverSound(Finished(b, rr).1)
  {
    if rr.pendingTasks == 0 {
      GetOrCreateInv(b, rr.requirement, rr.parentTask);
    }
  }

  /** On a sound index the per-task ancestry check never skips anything once
      the requirement itself passed the loop check: every indexed task for `r`
      resolves `r`, and no ancestor of the dependent does. */
  lemma NoIndexedTaskIsAncestor(b: Builder, r: Requirement, dependent: Option<Task>)
    requires IndexSound(b)
    requires dependent.Some? ==> !HasParentRequirement(dependent.value, r)
    ensures UsableTasks(GetTasksResolving(b, r), dependent) == GetTasksResolving(b, r)
  {
    forall t | t in GetTasksResolving(b, r)
      ensures t in UsableTasks(GetTasksResolving(b, r), dependent)
    {
      if dependent.Some? && HasParentTask(dependent.value, t) {
        AncestorResolvesChainRequirement(dependent.value, t);
      }
    }
  }

  lemma DeclareInv(b: Builder, s: Specification, t: Task, p: Producer)
    requires Inv(b)
    ensures Inv(DeclareTaskProducing(b, s, t, p).0)
  {
  }

  /** A pump deferred by the trampoline keeps the invariants. */
  lemma PumpDeferralInv(b: Builder, c: Context, p: PumpRef, body: PumpBody)
    requires Inv(b) && c.depth + 1 > MaxCallbackDepth
    ensures Inv(Pump(b, c, p, body).builder)
  {
    AddToRunQueueInv(b, DeferredPump(p));
  }

  /** A job step run by a well-behaved collaborator keeps the invariants, also
      when the step throws. */
  lemma JobInnerStepInv(b: Builder, c: Context, exec: (Builder, Context, Runnable) -> Outcome)
    requires Inv(b) && StepRespectsInvariants(exec)
    ensures Inv(JobInnerStep(b, c, exec).0)
  {
    if |b.runQueue| > 0 {
      var tail := b.(runQueue := b.runQueue[1..]);
      assert Slack(tail) == Slack(b) + 1;
      var o := exec(tail, c, b.runQueue[0]);
      assert Slack(o.builder) >= Slack(b) + 1;
    }
  }

  /** Registering the caller's job and unregistering that same job both keep
      the invariants; the exit removes exactly that job. */
  lemma CallerJobInv(b: Builder)
    requires Inv(b)
    ensures Inv(CallerJobStart(b).0)
    ensures var (b1, job) := CallerJobStart(b);
      Inv(JobExit(b1, job)) && JobExit(b1, job).activeJobs == b.activeJobs
  {
  }

  /** Any job, background or the caller's own, leaving the active set keeps
      the invariants. */
  lemma JobExitInv(b: Builder, job: JobId)
    requires Inv(b)
    ensures Inv(JobExit(b, job))
  {
  }

  /** A root request keeps the invariants. */
  lemma AddTargetInv(b: Builder, r: Requirement)
    requires Inv(b)
    ensures Inv(AddTarget(b, r).0)
  {
    ResolveRequirementInv(b, r, None);
    StartJobInv(ResolveRequirement(b, r, None).0);
  }

  /** Resolving root requests one after another keeps the invariants. */
  lemma {:induction false} ResolveAllInv(b: Builder, rs: seq<Requirement>)
    requires Inv(b)
    ensures Inv(ResolveAll(b, rs))
    decreases |rs|
  {
    if rs != [] {
      ResolveRequirementInv(b, rs[0], None);
      ResolveAllInv(ResolveRequirement(b, rs[0], None).0, rs[1..]);
    }
  }

  /** A set of root requests keeps the invariants. */
  lemma AddTargetsInv(b: Builder, rs: seq<Requirement>)
    requires Inv(b)
    ensures Inv(AddTargets(b, rs))
  {
    ResolveAllInv(b, rs);
    StartJobInv(ResolveAll(b, rs));
  }

  /** With the caller's job kept out of the pool accounting, the end of a
      logical block keeps the counter equal to the number of pooled jobs. */
  lemma JobBlockEndCorrectedInv(b: Builder, c: Context, job: JobId)
    requires Inv(b)
    requires job in b.backgroundJobs ==> job in b.pooled
    ensures Inv(JobBlockEndCorrected(b, c, job).0)
  {
    if job in b.backgroundJobs {
      var (b1, resumed) := JobBlockEnd(b, c, job);
      assert |b.pooled - {job}| == |b.pooled| - 1;
      if resumed {
        assert b.pooled - {job} + {job} == b.pooled;
      }
    }
  }

  /** The scenario of the counter drift, as written: with no background
      threads allowed, a target is added and the caller builds the graph in its
      own job; that job releases a pool slot it never claimed, so the next
      target starts a background job although the maximum is zero. */
  lemma CallerJobLeaksPoolSlot(r1: Requirement, r2: Requirement)
    requires r1 != r2
    ensures
      var idle := (b: Builder, c: Context, item: Runnable) => Returned(b, c);
      var b0 := AddTarget(Initial("", 0), r1).0;
      var (b1, job) := CallerJobStart(b0);
      var (b2, c2, more) := JobInnerStep(b1, FreshContext(), idle);
      var (b3, c3, more3) := JobInnerStep(b2, c2, idle);
      var (b4, resumed) := JobBlockEnd(b3, c3, job);
      var b5 := JobExit(b4, job);
      var b6 := AddTarget(b5, r2).0;
      && Inv(b0) && more && !more3 && !resumed
      && b5.activeJobCount == -1 && b5.pooled == {} && !PoolSound(b5)
      && b6.maxAdditionalThreads == 0 && b6.backgroundJobs != {}
  {
    var idle := (b: Builder, c: Context, item: Runnable) => Returned(b, c);
    var b0 := AddTarget(Initial("", 0), r1).0;
    assert |b0.runQueue| == 1;
    var (b1, job) := CallerJobStart(b0);
    var (b2, c2, more) := JobInnerStep(b1, FreshContext(), idle);
    assert |b2.runQueue| == 0;
    var (b3, c3, more3) := JobInnerStep(b2, c2, idle);
    var (b4, resumed) := JobBlockEnd(b3, c3, job);
    var b5 := JobExit(b4, job);
    assert b5.activeJobCount == -1 && b5.pooled == {};
    var (b6a, p) := ResolveRequirement(b5, r2, None);
    assert b6a.activeJobCount == -1;
  }

  /** The same scenario with the corrected block end: the counter stays sound
      and the second target starts no background job. */
  lemma CallerJobKeepsPoolSound(r1: Requirement, r2: Requirement)
    requires r1 != r2
    ensures
      var idle := (b: Builder, c: Context, item: Runnable) => Returned(b, c);
      var b0 := AddTarget(Initial("", 0), r1).0;
      var (b1, job) := CallerJobStart(b0);
      var (b2, c2, more) := JobInnerStep(b1, FreshContext(), idle);
      var (b3, c3, more3) := JobInnerStep(b2, c2, idle);
      var (b4, resumed) := JobBlockEndCorrected(b3, c3, job);
      var b5 := JobExit(b4, job);
      var b6 := AddTarget(b5, r2).0;
      && !resumed && Inv(b5) && b6.backgroundJobs == {} && b6.activeJobCount == 0
  {
    var idle := (b: Builder, c: Context, item: Runnable) => Returned(b, c);
    var b0 := AddTarget(Initial("", 0), r1).0;
    assert |b0.runQueue| == 1;
    var (b1, job) := CallerJobStart(b0);
    var (b2, c2, more) := JobInnerStep(b1, FreshContext(), idle);
    assert |b2.runQueue| == 0;
    var (b3, c3, more3) := JobInnerStep(b2, c2, idle);
    var (b4, resumed) := JobBlockEndCorrected(b3, c3, job);
    var b5 := JobExit(b4, job);
    assert b5.activeJobCount == 0 && b5.pooled == {};
    var (b6a, p) := ResolveRequirement(b5, r2, None);
    assert b6a.activeJobCount == 0;
  }
}

=== FILE: builder_state.dfy ===
/** The explicit state of one graph build. `Builder` is the state shared by all
    worker contexts (indices, run queue, job accounting, collected outputs and
    the exception accumulator of the root context); `Context` is the state a
    single worker context owns. */
module BuilderState {
  import opened Wrappers
  import opened GraphTypes

  /** Callbacks nested deeper than this are deferred to the run queue. */
  const MaxCallbackDepth: int := 16

  datatype Builder = Builder(
    calculationConfigurationName: string,
    /** requirement -> tasks resolving it */
    requirements: map<Requirement, set<Task>>,
    /** specification -> (task -> producer) */
    specifications: map<Specification, map<Task, Producer>>,
    runQueue: seq<Runnable>,
    activeJobCount: int,
    /** jobs registered as running; cleared on cancellation */
    activeJobs: set<JobId>,
    /** jobs created by the background pool (as opposed to the caller's own job) */
    backgroundJobs: set<JobId>,
    /** background jobs currently holding one unit of `activeJobCount` */
    pooled: set<JobId>,
    poisoned: set<JobId>,
    nextJobId: JobId,
    maxAdditionalThreads: nat,
    scheduledSteps: nat,
    completedSteps: nat,
    graphNodes: set<Node>,
    terminalOutputs: map<Requirement, Specification>,
    /** the root context's exception accumulator */
    exceptions: ExceptionCache)

  /** Per-worker state: reentrant call depth and the local exception cache. */
  datatype Context = Context(depth: int, exceptions: ExceptionCache)

  /** How a call into collaborator code ended: normally, or with an exception
      that skipped the remaining statements of every enclosing call. */
  datatype Outcome =
    | Returned(builder: Builder, context: Context)
    | Threw(builder: Builder, context: Context, error: Exc)

  /** The builder as constructed, with the default thread count supplied. */
  function Initial(configurationName: string, defaultMaxAdditionalThreads: nat): (b: Builder)
    ensures b.requirements == map[] && b.specifications == map[] && b.runQueue == []
    ensures b.activeJobCount == 0 && b.activeJobs == {} && b.pooled == {}
    ensures b.maxAdditionalThreads == defaultMaxAdditionalThreads
    ensures b.exceptions.None?
    ensures b.backgroundJobs == {} && b.poisoned == {} && b.nextJobId == 0
    ensures b.scheduledSteps == 0 && b.completedSteps == 0
    ensures b.graphNodes == {} && b.terminalOutputs == map[]
    ensures b.calculationConfigurationName == configurationName
  {
    Builder(configurationName, map[], map[], [], 0, {}, {}, {}, {}, 0,
            defaultMaxAdditionalThreads, 0, 0, {}, map[], None)
  }

  /** Errors a builder operation reports to its caller. */
  datatype BuildError =
    | IllegalArgument(name: string)
    | Cancelled                       // construction stopped before the fixed point

  /** A newly created worker context: at call depth zero, with no exception
      recorded yet. */
  function FreshContext(): (c: Context)
    ensures c.depth == 0 && c.exceptions.None?
  {
    Context(0, None)
  }

  /** The outcome ended normally at call depth `d`. */
  predicate ReturnsAtDepth(o: Outcome, d: int) {
    o.Returned? && o.context.depth == d
  }

  /** The two builders agree on everything except the run queue, the scheduled
      step count and the job accounting. */
  predicate SameResolutionState(a: Builder, b: Builder) {
    && a.requirements == b.requirements
    && a.specifications == b.specifications
    && a.completedSteps == b.completedSteps
    && a.graphNodes == b.graphNodes
    && a.terminalOutputs == b.terminalOutputs
    && a.exceptions == b.exceptions
    && a.calculationConfigurationName == b.calculationConfigurationName
  }
}

=== FILE: exceptions.dfy ===
/** Exception aggregation: each context counts the exceptions it catches, and
    a finishing job merges its context's counts into the shared accumulator. */
module Exceptions {
  import opened Wrappers
  import opened GraphTypes

  /** The recorded counts; an absent cache has recorded nothing. */
  function Counts(cache: ExceptionCache): map<Exc, nat> {
    cache.GetOr(map[])
  }

  /** How often `e` was recorded. */
  function Count(cache: ExceptionCache, e: Exc): nat {
    if e in Counts(cache) then Counts(cache)[e] else 0
  }

  /** Records one more occurrence of `e`, creating the cache on first use. */
  function RecordException(cache: ExceptionCache, e: Exc): (r: ExceptionCache)
    ensures r.Some?
    ensures r.value.Keys == Counts(cache).Keys + {e}
    ensures Count(r, e) == Count(cache, e) + 1
    ensures forall x :: x != e ==> Count(r, x) == Count(cache, x)
  {
    Some(Counts(cache)[e := Count(cache, e) + 1])
  }

  /** The accumulator after merging a context's cache into it: keys from either
      side, counts added. */
  function Merged(acc: ExceptionCache, ctx: ExceptionCache): (r: ExceptionCache)
    ensures r.Some?
    ensures r.value.Keys == Counts(acc).Keys + Counts(ctx).Keys
    ensures forall e :: Count(r, e) == Count(acc, e) + Count(ctx, e)
  {
    Some(map e | e in Counts(acc).Keys + Counts(ctx).Keys :: Count(acc, e) + Count(ctx, e))
  }

  /** Merges a thread's cache entry by entry, as the collation step does. */
  method MergeThreadContext(acc: ExceptionCache, ctx: ExceptionCache) returns (r: ExceptionCache)
    ensures r == Merged(acc, ctx)
  {
    var m := Counts(acc);
    var rest := Counts(ctx).Keys;
    while rest != {}
      invariant rest <= Counts(ctx).Keys
      invariant m.Keys == Counts(acc).Keys + (Counts(ctx).Keys - rest)
      invariant forall e :: e in m ==> m[e] == Count(acc, e) + (if e in rest then 0 else Count(ctx, e))
      decreases rest
    {
      var e :| e in rest;
      if e in m {
        m := m[e := m[e] + Counts(ctx)[e]];
      } else {
        m := m[e := Counts(ctx)[e]];
      }
      rest := rest - {e};
    }
    var target := Merged(acc, ctx).value;
    assert m.Keys == target.Keys;
    forall e | e in m ensures m[e] == target[e] {
      assert Count(Merged(acc, ctx), e) == target[e];
    }
    assert m == target;
    r := Some(m);
  }

  /** The exception report: every recorded exception with its count. */
  function GetExceptions(acc: ExceptionCache): (r: map<Exc, nat>)
    ensures acc.None? ==> r == map[]
    ensures r.Keys == Counts(acc).Keys
    ensures forall e :: e in r ==> r[e] == Count(acc, e)
    ensures forall e :: Count(acc, e) > 0 ==> e in r
  {
    Counts(acc)
  }

  /** Records `e` `n` times. */
  function RecordRepeatedly(cache: ExceptionCache, e: Exc, n: nat): ExceptionCache
    decreases n
  {
    if n == 0 then cache else RecordException(RecordRepeatedly(cache, e, n - 1), e)
  }

  /** The same exception recorded n > 0 times in a fresh context and merged into
      a fresh accumulator is reported once, with count n. */
  lemma {:induction false} RepeatedExceptionReportedOnce(e: Exc, n: nat)
    requires n > 0
    ensures GetExceptions(Merged(None, RecordRepeatedly(None, e, n))) == map[e := n]
  {
    RepeatedCounts(e, n);
    var r := GetExceptions(Merged(None, RecordRepeatedly(None, e, n)));
    assert r.Keys == {e};
  }

  lemma {:induction false} RepeatedCounts(e: Exc, n: nat)
    ensures Counts(RecordRepeatedly(None, e, n)).Keys == if n == 0 then {} else {e}
    ensures Count(RecordRepeatedly(None, e, n), e) == n
  {
    if n > 0 {
      RepeatedCounts(e, n - 1);
    }
  }

  /** The order in which worker contexts are merged does not change the report. */
  lemma MergeOrderIrrelevant(acc: ExceptionCache, x: ExceptionCache, y: ExceptionCache)
    ensures GetExceptions(Merged(Merged(acc, x), y)) == GetExceptions(Merged(Merged(acc, y), x))
  {
    var a := GetExceptions(Merged(Merged(acc, x), y));
    var b := GetExceptions(Merged(Merged(acc, y), x));
    assert a.Keys == b.Keys;
    forall e | e in a ensures a[e] == b[e] {
      assert Count(Merged(Merged(acc, x), y), e) == Count(acc, e) + Count(x, e) + Count(y, e);
    }
  }

  /** Merging only contexts that never recorded anything leaves the report empty. */
  lemma MergeNothingReportsNothing(ctx: ExceptionCache)
    requires ctx.None? || ctx == Some(map[])
    ensures GetExceptions(Merged(None, ctx)) == map[]
  {
    assert Merged(None, ctx).value.Keys == {};
  }
}

=== FILE: fx_future_data.dfy ===
/** The FX future data bundle: an immutable value holding a domestic discount
    curve, a foreign discount curve, a spot rate and a valuation date, with
    "copy with one field replaced" operations. The superclass's own
    constructor checks and its equality are supplied by the caller. */
module FXFutureData {
  import opened Wrappers

  /** A discount curve, known here only by name; curve equality is supplied
      by the caller. */
  datatype Curve = Curve(name: string)

  /** A valuation date-time, as an instant. */
  type DateTime = int

  datatype Bundle = Bundle(discountCurve: Option<Curve>, spot: real, date: Option<DateTime>, foreignCurve: Curve)

  datatype BundleError = IllegalArgument(message: string) | SuperclassRejected

  /** Whether the superclass constructor accepts (domestic curve, spot, date). */
  type SuperclassCheck = (Option<Curve>, real, Option<DateTime>) -> bool

  /** The state the superclass constructor accepted. */
  predicate Constructed(a: Bundle, superAccepts: SuperclassCheck) {
    superAccepts(a.discountCurve, a.spot, a.date)
  }

  /** The constructor: the superclass checks its arguments first, then a null
      foreign curve is rejected. */
  function New(domestic: Option<Curve>, foreign: Option<Curve>, spot: real, date: Option<DateTime>, superAccepts: SuperclassCheck): (r: Result<Bundle, BundleError>)
    ensures r.Success? <==> superAccepts(domestic, spot, date) && foreign.Some?
    ensures !superAccepts(domestic, spot, date) ==> r == Failure(SuperclassRejected)
    ensures superAccepts(domestic, spot, date) && foreign.None? ==> r == Failure(IllegalArgument("Foreign curve was null"))
    ensures r.Success? ==> && r.value.discountCurve == domestic && r.value.foreignCurve == foreign.value
                           && r.value.spot == spot && r.value.date == date
                           && Constructed(r.value, superAccepts)
  {
    if !superAccepts(domestic, spot, date) then Failure(SuperclassRejected)
    else if foreign.None? then Failure(IllegalArgument("Foreign curve was null"))
    else Success(Bundle(domestic, spot, date, foreign.value))
  }

  function WithDiscountCurve(a: Bundle, newCurve: Option<Curve>, superAccepts: SuperclassCheck): (r: Result<Bundle, BundleError>)
    ensures newCurve.None? ==> r == Failure(IllegalArgument("New curve was null"))
    ensures newCurve.Some? && !superAccepts(newCurve, a.spot, a.date) ==> r == Failure(SuperclassRejected)
    ensures r.Success? <==> newCurve.Some? && superAccepts(newCurve, a.spot, a.date)
    ensures r.Success? ==> r.value == a.(discountCurve := newCurve)
  {
    if newCurve.None? then Failure(IllegalArgument("New curve was null"))
    else New(newCurve, Some(a.foreignCurve), a.spot, a.date, superAccepts)
  }

  function WithForeignCurve(a: Bundle, newCurve: Option<Curve>, superAccepts: SuperclassCheck): (r: Result<Bundle, BundleError>)
    ensures newCurve.None? ==> r == Failure(IllegalArgument("New curve was null"))
    ensures newCurve.Some? && !Constructed(a, superAccepts) ==> r == Failure(SuperclassRejected)
    ensures r.Success? <==> newCurve.Some? && Constructed(a, superAccepts)
    ensures r.Success? ==> r.value == a.(foreignCurve := newCurve.value)
  {
    if newCurve.None? then Failure(IllegalArgument("New curve was null"))
    else New(a.discountCurve, newCurve, a.spot, a.date, superAccepts)
  }

  function WithSpot(a: Bundle, newSpot: real, superAccepts: SuperclassCheck): (r: Result<Bundle, BundleError>)
    ensures newSpot < 0.0 ==> r == Failure(IllegalArgument("New spot was negative"))
    ensures newSpot >= 0.0 && !superAccepts(a.discountCurve, newSpot, a.date) ==> r == Failure(SuperclassRejected)
    ensures r.Success? <==> newSpot >= 0.0 && superAccepts(a.discountCurve, newSpot, a.date)
    ensures r.Success? ==> r.value == a.(spot := newSpot)
  {
    if newSpot < 0.0 then Failure(IllegalArgument("New spot was negative"))
    else New(a.discountCurve, Some(a.foreignCurve), newSpot, a.date, superAccepts)
  }

  function WithDate(a: Bundle, newDate: Option<DateTime>, superAccepts: SuperclassCheck): (r: Result<Bundle, BundleError>)
    ensures newDate.None? ==> r == Failure(IllegalArgument("New date was null"))
    ensures newDate.Some? && !superAccepts(a.discountCurve, a.spot, newDate) ==> r == Failure(SuperclassRejected)
    ensures r.Success? <==> newDate.Some? && superAccepts(a.discountCurve, a.spot, newDate)
    ensures r.Success? ==> r.value == a.(date := newDate)
  {
    if newDate.None? then Failure(IllegalArgument("New date was null"))
    else New(a.discountCurve, Some(a.foreignCurve), a.spot, newDate, superAccepts)
  }

  /** Equality: the superclass's equality, then equality of the foreign curves. */
  function Equals(a: Bundle, b: Bundle, superEquals: (Bundle, Bundle) -> bool, curveEquals: (Curve, Curve) -> bool): (equal: bool)
    ensures equal ==> superEquals(a, b) && curveEquals(a.foreignCurve, b.foreignCurve)
    ensures superEquals(a, b) && curveEquals(a.foreignCurve, b.foreignCurve) ==> equal
  {
    if !superEquals(a, b) then false
    else curveEquals(a.foreignCurve, b.foreignCurve)
  }

  /** A zero spot is accepted; every negative spot is rejected, whatever the
      superclass would say. */
  lemma SpotSignBoundary(a: Bundle, superAccepts: SuperclassCheck)
    requires superAccepts(a.discountCurve, 0.0, a.date)
    ensures WithSpot(a, 0.0, superAccepts).Success?
    ensures forall s: real :: s < 0.0 ==> WithSpot(a, s, superAccepts).Failure?
  {
  }

  /** Replacing the same field twice keeps only the second value. */
  lemma LastWriteWins(a: Bundle, c1: Curve, c2: Curve, s1: real, s2: real, superAccepts: SuperclassCheck)
    requires Constructed(a, superAccepts)
    requires 0.0 <= s1 && 0.0 <= s2
    requires superAccepts(a.discountCurve, s1, a.date) && superAccepts(a.discountCurve, s2, a.date)
    ensures WithForeignCurve(WithForeignCurve(a, Some(c1), superAccepts).value, Some(c2), superAccepts)
            == WithForeignCurve(a, Some(c2), superAccepts)
    ensures WithSpot(WithSpot(a, s1, superAccepts).value, s2, superAccepts) == WithSpot(a, s2, superAccepts)
  {
  }

  /** Replacing a field of a constructed bundle by its current value returns
      an equal bundle. */
  lemma RestoringIsIdentity(a: Bundle, superAccepts: SuperclassCheck)
    requires Constructed(a, superAccepts)
    requires a.discountCurve.Some? && a.date.Some? && 0.0 <= a.spot
    ensures WithDiscountCurve(a, a.discountCurve, superAccepts) == Success(a)
    ensures WithForeignCurve(a, Some(a.foreignCurve), superAccepts) == Success(a)
    ensures WithSpot(a, a.spot, superAccepts) == Success(a)
    ensures WithDate(a, a.date, superAccepts) == Success(a)
  {
  }

  /** The foreign curve is independent of the superclass state: replacing it
      commutes with replacing the spot or the date. */
  lemma ForeignCurveCommutes(a: Bundle, c: Curve, s: real, t: DateTime, superAccepts: SuperclassCheck)
    requires Constructed(a, superAccepts) && 0.0 <= s
    requires superAccepts(a.discountCurve, s, a.date) && superAccepts(a.discountCurve, a.spot, Some(t))
    ensures WithSpot(WithForeignCurve(a, Some(c), superAccepts).value, s, superAccepts)
            == WithForeignCurve(WithSpot(a, s, superAccepts).value, Some(c), superAccepts)
    ensures WithDate(WithForeignCurve(a, Some(c), superAccepts).value, Some(t), superAccepts)
            == WithForeignCurve(WithDate(a, Some(t), superAccepts).value, Some(c), superAccepts)
  {
  }

  /** For bundles whose superclass state is equal, equality is exactly equality
      of the foreign curves; unequal superclass state is never equal. */
  lemma EqualsDecidedByForeignCurve(a: Bundle, b: Bundle, superEquals: (Bundle, Bundle) -> bool, curveEquals: (Curve, Curve) -> bool)
    ensures superEquals(a, b) ==> (Equals(a, b, superEquals, curveEquals) <==> curveEquals(a.foreignCurve, b.foreignCurve))
    ensures !superEquals(a, b) ==> !Equals(a, b, superEquals, curveEquals)
  {
  }

  /** Equality is an equivalence when the superclass's equality and curve
      equality are. */
  lemma EqualsIsEquivalence(a: Bundle, b: Bundle, c: Bundle, superEquals: (Bundle, Bundle) -> bool, curveEquals: (Curve, Curve) -> bool)
    requires forall x :: superEquals(x, x)
    requires forall x, y :: superEquals(x, y) ==> superEquals(y, x)
    requires forall x, y, z :: superEquals(x, y) && superEquals(y, z) ==> superEquals(x, z)
    requires forall x :: curveEquals(x, x)
    requires forall x, y :: curveEquals(x, y) ==> curveEquals(y, x)
    requires forall x, y, z :: curveEquals(x, y) && curveEquals(y, z) ==> curveEquals(x, z)
    ensures Equals(a, a, superEquals, curveEquals)
    ensures Equals(a, b, superEquals, curveEquals) ==> Equals(b, a, superEquals, curveEquals)
    ensures Equals(a, b, superEquals, curveEquals) && Equals(b, c, superEquals, curveEquals) ==> Equals(a, c, superEquals, curveEquals)
  {
  }

  /** A replacement changes equality only through the field it replaces: with
      value equality for the superclass, a bundle with a new foreign curve
      equals the original iff the curves are equal. */
  lemma WithForeignCurveEquality(a: Bundle, c: Curve, superAccepts: SuperclassCheck, curveEquals: (Curve, Curve) -> bool)
    requires Constructed(a, superAccepts)
    ensures var superEquals := (x: Bundle, y: Bundle) => x.discountCurve == y.discountCurve && x.spot == y.spot && x.date == y.date;
      Equals(WithForeignCurve(a, Some(c), superAccepts).value, a, superEquals, curveEquals) <==> curveEquals(c, a.foreignCurve)
  {
  }
}

=== FILE: graph_assembly.dfy ===
/** Assembling the finished graph and the caller-facing retrieval steps. */
module GraphAssembly {
  import opened Wrappers
  import opened GraphTypes
  import opened BuilderState
  import opened Scheduling

  /** The graph made of the collected nodes and the specifications the
      requested requirements resolved to. */
  function CreateDependencyGraph(b: Builder): (g: DependencyGraph)
    ensures g.calculationConfigurationName == b.calculationConfigurationName
    ensures g.nodes == b.graphNodes
    ensures forall s :: s in g.terminalOutputValues <==> exists r :: r in b.terminalOutputs && b.terminalOutputs[r] == s
  {
    DependencyGraph(b.calculationConfigurationName, b.graphNodes, b.terminalOutputs.Values)
  }

  /** A copy of the requirement -> specification map of satisfied requests. */
  function GetValueRequirementMapping(b: Builder): (m: map<Requirement, Specification>)
    ensures m.Keys == b.terminalOutputs.Keys
    ensures forall r :: r in m ==> m[r] == b.terminalOutputs[r]
  {
    b.terminalOutputs
  }

  /** The graph's terminal outputs are exactly the specifications of the
      mapping, and the graph depends on nothing but the nodes, the mapping and
      the configuration name: assembling it again yields the same graph. */
  lemma GraphAgreesWithMapping(a: Builder, b: Builder)
    requires a.graphNodes == b.graphNodes
    requires GetValueRequirementMapping(a) == GetValueRequirementMapping(b)
    requires a.calculationConfigurationName == b.calculationConfigurationName
    ensures CreateDependencyGraph(a) == CreateDependencyGraph(b)
    ensures CreateDependencyGraph(a).terminalOutputValues == GetValueRequirementMapping(a).Values
  {
  }

  /** The graph if the build is at its fixed point, none otherwise. */
  function PollDependencyGraph(b: Builder): (g: Option<DependencyGraph>)
    ensures g.Some? <==> b.activeJobs == {} && |b.runQueue| == 0
    ensures g.Some? ==> g.value.nodes == b.graphNodes && g.value.terminalOutputValues == b.terminalOutputs.Values
  {
    if IsGraphBuilt(b) then Some(CreateDependencyGraph(b)) else None
  }

  /** What the caller does after its own job returned. */
  datatype CallerNext =
    | Done           // no job registered: leave the loop
    | RunAgain       // other jobs registered and work queued: run another job
    | Wait           // other jobs registered, nothing queued: sleep and retry
    | NotReady       // as Wait, but the caller asked not to be blocked

  function CallerDecision(b: Builder, allowBackgroundContinuation: bool): (d: CallerNext)
    ensures d == Done <==> b.activeJobs == {}
    ensures d == RunAgain <==> b.activeJobs != {} && |b.runQueue| > 0
    ensures d == Wait <==> b.activeJobs != {} && |b.runQueue| == 0 && allowBackgroundContinuation
    ensures d == NotReady <==> b.activeJobs != {} && |b.runQueue| == 0 && !allowBackgroundContinuation
  {
    if b.activeJobs == {} then Done
    else if |b.runQueue| > 0 then RunAgain
    else if allowBackgroundContinuation then Wait
    else NotReady
  }

  /** After the caller's loop ends: the graph, or cancellation if work is still
      left (the jobs were poisoned before the queue drained). */
  function FinishDependencyGraph(b: Builder): (r: Result<DependencyGraph, BuildError>)
    ensures r.Success? <==> b.activeJobs == {} && |b.runQueue| == 0
    ensures r.Failure? ==> r.error == Cancelled
    ensures r.Success? ==> r.value == PollDependencyGraph(b).value
  {
    if !IsGraphBuilt(b) then Failure(Cancelled) else Success(CreateDependencyGraph(b))
  }

  /** Leaving the loop with an empty queue always yields the graph; leaving it
      with work still queued is the cancelled case, never a partial graph. */
  lemma DoneMeansGraphOrCancelled(b: Builder, allow: bool)
    requires CallerDecision(b, allow) == Done
    ensures |b.runQueue| == 0 ==> FinishDependencyGraph(b) == Success(CreateDependencyGraph(b))
    ensures |b.runQueue| > 0 ==> FinishDependencyGraph(b) == Failure(Cancelled)
  {
  }

  /** The fixed point is where the caller stops and finds the graph: nothing
      is left to run, polling returns the graph, and finishing does not report
      cancellation. Away from it the caller either still has work or is
      waiting for other jobs. */
  lemma GraphBuiltMeansQuiescent(b: Builder, c: Context, exec: (Builder, Context, Runnable) -> Outcome, allow: bool)
    ensures IsGraphBuilt(b) <==> PollDependencyGraph(b).Some?
    ensures IsGraphBuilt(b) ==>
      && BuildGraph(b, c, exec) == (Returned(b, c), false)
      && CallerDecision(b, allow) == Done
      && FinishDependencyGraph(b) == Success(CreateDependencyGraph(b))
    ensures !IsGraphBuilt(b) ==> CallerDecision(b, allow) != Done || |b.runQueue| > 0
    ensures !IsGraphBuilt(b) && |b.runQueue| == 0 ==> b.activeJobs != {} && CallerDecision(b, allow) in {Wait, NotReady}
  {
  }
}

=== FILE: graph_types.dfy ===
/** Value types of the dependency-graph builder: requirements, specifications,
    resolution tasks with their ancestry, producers, run-queue items and graph
    nodes. */
module GraphTypes {
  import opened Wrappers

  /** A request for a value: logical name, target and constraints. Value-equal. */
  datatype Requirement = Requirement(valueName: string, target: string, constraints: set<string>)

  /** A value that can be produced: logical name, target and concrete properties. */
  datatype Specification = Specification(valueName: string, target: string, properties: set<string>)

  /** A resolved value: the specification plus the computation step producing it. */
  datatype ResolvedValue = ResolvedValue(specification: Specification, functionName: string)

  /** A computation step of the finished graph. */
  datatype Node = Node(functionName: string, target: string, inputs: set<Specification>, outputs: set<Specification>)

  /** A thrown exception, compared by value as the exception wrapper does. */
  datatype Exc = Exc(kind: string, message: string)

  /** A source of further alternatives that a callback may ask for. */
  datatype PumpRef = PumpRef(id: nat)

  type JobId = nat

  /** A resolution task: the requirement it resolves and the requirements of its
      parent tasks, nearest parent first. Two tasks are the same task exactly
      when both agree. */
  datatype Task = Task(requirement: Requirement, parents: seq<Requirement>)

  /** The task's own requirement followed by those of all its ancestors. */
  function Chain(t: Task): (c: seq<Requirement>)
    ensures |c| == |t.parents| + 1 && c[0] == t.requirement
  {
    [t.requirement] + t.parents
  }

  /** The ancestor k steps up the chain; step 0 is the task itself. */
  function AncestorAt(t: Task, k: nat): Task
    requires k < |Chain(t)|
  {
    Task(Chain(t)[k], Chain(t)[k + 1..])
  }

  /** The task, or one of its ancestors, resolves `r`. */
  predicate HasParentRequirement(t: Task, r: Requirement) {
    r in Chain(t)
  }

  /** `u` is the task itself or one of its ancestors. */
  predicate HasParentTask(t: Task, u: Task) {
    exists k :: 0 <= k < |Chain(t)| && AncestorAt(t, k) == u
  }

  /** The task created for `r` on behalf of `parent` (none for a root request). */
  function ChildTask(r: Requirement, parent: Option<Task>): (t: Task)
    ensures t.requirement == r
    ensures parent.None? ==> t.parents == []
    ensures parent.Some? ==> t.parents == Chain(parent.value)
  {
    Task(r, if parent.Some? then Chain(parent.value) else [])
  }

  predicate NoDuplicates(s: seq<Requirement>) {
    forall i, j :: 0 <= i < j < |s| ==> s[i] != s[j]
  }

  /** No requirement occurs twice along the task's ancestry: no requirement loop. */
  predicate Acyclic(t: Task) {
    NoDuplicates(Chain(t))
  }

  /** State of a resolver that aggregates several tasks for one requirement.
      `pendingTasks` counts members not yet finished; -1 marks that the
      fallback has been tried. */
  datatype RequirementResolver = RequirementResolver(
    requirement: Requirement,
    parentTask: Option<Task>,
    tasks: set<Task>,
    pendingTasks: int)

  /** What `resolveRequirement` hands back to a dependent. */
  datatype Producer =
    | LoopFailure(requirement: Requirement)   // reports failure to every callback
    | Aggregate(resolver: RequirementResolver)
    | Direct(task: Task)

  /** An item of the run queue. */
  datatype Runnable =
    | RunTask(task: Task)
    | DeferredPump(pump: PumpRef)

  /** What a producer tells a callback. */
  datatype Notification =
    | ResolvedNote(requirement: Requirement, value: ResolvedValue, pump: PumpRef)
    | FailedNote(requirement: Requirement)

  /** The assembled graph. */
  datatype DependencyGraph = DependencyGraph(
    calculationConfigurationName: string,
    nodes: set<Node>,
    terminalOutputValues: set<Specification>)

  /** Exception counts; None while the cache has not been created. */
  type ExceptionCache = Option<map<Exc, nat>>

  /** A chain whose head is not in the parent's (loop-free) chain stays loop-free. */
  lemma ChildAcyclic(r: Requirement, parent: Option<Task>)
    requires parent.Some? ==> Acyclic(parent.value) && !HasParentRequirement(parent.value, r)
    ensures Acyclic(ChildTask(r, parent))
  {
    var c := Chain(ChildTask(r, parent));
    forall i, j | 0 <= i < j < |c|
      ensures c[i] != c[j]
    {
      if i > 0 {
        var pc := Chain(parent.value);
        assert c[i] == pc[i - 1] && c[j] == pc[j - 1];
      } else if parent.Some? {
        assert c[j] == Chain(parent.value)[j - 1];
      }
    }
  }

  /** A task's ancestors all have their requirement on its chain, so a
      requirement that is not on the chain cannot be resolved by an ancestor. */
  lemma AncestorResolvesChainRequirement(t: Task, u: Task)
    requires HasParentTask(t, u)
    ensures HasParentRequirement(t, u.requirement)
  {
    var k :| 0 <= k < |Chain(t)| && AncestorAt(t, k) == u;
    assert u.requirement == Chain(t)[k];
  }
}

=== FILE: indices.dfy ===
/** The two shared indices: requirement -> tasks resolving it, and
    specification -> (task -> producer). Both only ever gain entries, through
    insert-if-absent. */
module Indices {
  import opened Wrappers
  import opened GraphTypes
  import opened BuilderState
  import opened Scheduling

  /** Snapshot of the tasks resolving `r`; empty when none was ever indexed. */
  function GetTasksResolving(b: Builder, r: Requirement): (ts: set<Task>)
    ensures r !in b.requirements ==> ts == {}
    ensures r in b.requirements ==> ts == b.requirements[r]
  {
    if r in b.requirements then b.requirements[r] else {}
  }

  /** The producers declared for `s`, by task; empty when none. */
  function GetTasksProducing(b: Builder, s: Specification): (m: map<Task, Producer>)
    ensures s !in b.specifications ==> m == map[]
    ensures s in b.specifications ==> m == b.specifications[s]
  {
    if s in b.specifications then b.specifications[s] else map[]
  }

  /** Finds the task for `r` on behalf of `parent`, creating, indexing and
      queueing it when no equal task is indexed under `r`. */
  function GetOrCreateTaskResolving(b: Builder, r: Requirement, parent: Option<Task>): (res: (Builder, Task))
    ensures res.1 == ChildTask(r, parent)
    ensures res.1 in GetTasksResolving(b, r) ==> res.0 == b
    ensures res.1 !in GetTasksResolving(b, r) ==>
      && res.0.requirements == b.requirements[r := GetTasksResolving(b, r) + {res.1}]
      && res.0.runQueue == b.runQueue + [RunTask(res.1)]
      && res.0.scheduledSteps == b.scheduledSteps + 1
      && res.0.specifications == b.specifications
      && res.0.completedSteps == b.completedSteps && res.0.graphNodes == b.graphNodes
      && res.0.terminalOutputs == b.terminalOutputs && res.0.exceptions == b.exceptions
      && res.0.calculationConfigurationName == b.calculationConfigurationName
    ensures res.1 !in GetTasksResolving(b, r) ==>
      res.0 == AddToRunQueue(b.(requirements := b.requirements[r := GetTasksResolving(b, r) + {res.1}]), RunTask(res.1))
    ensures res.1 in GetTasksResolving(res.0, r)
    ensures res.0.maxAdditionalThreads == b.maxAdditionalThreads
  {
    var newTask := ChildTask(r, parent);
    if r !in b.requirements then
      var indexed := b.(requirements := b.requirements[r := {newTask}]);
      assert GetTasksResolving(b, r) + {newTask} == {newTask};
      (AddToRunQueue(indexed, RunTask(newTask)), newTask)
    else if newTask !in b.requirements[r] then
      var indexed := b.(requirements := b.requirements[r := b.requirements[r] + {newTask}]);
      (AddToRunQueue(indexed, RunTask(newTask)), newTask)
    else
      (b, newTask)
  }

  /** Declares that `task` produces `s` through `producer`. The first
      declaration for a (specification, task) pair wins: later ones get the
      earlier producer back and change nothing. */
  function DeclareTaskProducing(b: Builder, s: Specification, task: Task, producer: Producer): (res: (Builder, Producer))
    ensures task !in GetTasksProducing(b, s) ==>
      && res.1 == producer
      && res.0 == b.(specifications := b.specifications[s := GetTasksProducing(b, s)[task := producer]])
    ensures task in GetTasksProducing(b, s) ==> res.1 == GetTasksProducing(b, s)[task] && res.0 == b
  {
    if s !in b.specifications then
      (b.(specifications := b.specifications[s := map[task := producer]]), producer)
    else if task !in b.specifications[s] then
      (b.(specifications := b.specifications[s := b.specifications[s][task := producer]]), producer)
    else
      (b, b.specifications[s][task])
  }

  /** Declaring twice for the same pair returns the first producer both times. */
  lemma DeclareFirstClaimWins(b: Builder, s: Specification, t: Task, p1: Producer, p2: Producer)
    requires t !in GetTasksProducing(b, s)
    ensures var (b1, q1) := DeclareTaskProducing(b, s, t, p1);
            var (b2, q2) := DeclareTaskProducing(b1, s, t, p2);
            q1 == p1 && q2 == p1 && b2 == b1
  {
  }

  /** Neither index ever loses or rewrites an entry. */
  lemma IndicesOnlyGrow(b: Builder, r: Requirement, parent: Option<Task>, s: Specification, t: Task, p: Producer)
    ensures var b1 := GetOrCreateTaskResolving(b, r, parent).0;
            forall q :: GetTasksResolving(b, q) <= GetTasksResolving(b1, q)
    ensures var b2 := DeclareTaskProducing(b, s, t, p).0;
            forall q, u :: u in GetTasksProducing(b, q) ==>
              u in GetTasksProducing(b2, q) && GetTasksProducing(b2, q)[u] == GetTasksProducing(b, q)[u]
  {
  }
}

=== FILE: resolution.dfy ===
/** Requirement resolution: loop rejection, reuse of tasks already resolving a
    requirement through an aggregating resolver, and the resolver's one-time
    fallback to the canonical task. */
module Resolution {
  import opened Wrappers
  import opened GraphTypes
  import opened BuilderState
  import opened Scheduling
  import opened Indices
  import opened Trampoline

  /** The existing tasks a dependent may use: those that are not the dependent
      itself or one of its ancestors. */
  function UsableTasks(tasks: set<Task>, dependent: Option<Task>): set<Task> {
    set t | t in tasks && !(dependent.Some? && HasParentTask(dependent.value, t))
  }

  /** A resolver before any member was added. */
  function NewResolver(r: Requirement, parentTask: Option<Task>): (rr: RequirementResolver)
    ensures rr.requirement == r && rr.parentTask == parentTask
    ensures rr.tasks == {} && rr.pendingTasks == 0
  {
    RequirementResolver(r, parentTask, {}, 0)
  }

  /** Adds a member; a task already present is not added or counted again. */
  function AddTask(rr: RequirementResolver, t: Task): (r: RequirementResolver)
    ensures r.tasks == rr.tasks + {t}
    ensures r.pendingTasks == rr.pendingTasks + (if t in rr.tasks then 0 else 1)
    ensures r.requirement == rr.requirement && r.parentTask == rr.parentTask
  {
    if t in rr.tasks then rr else rr.(tasks := rr.tasks + {t}, pendingTasks := rr.pendingTasks + 1)
  }

  /** Adds the tasks of `xs` in order. */
  function AddTasks(rr: RequirementResolver, xs: seq<Task>): RequirementResolver
    decreases |xs|
  {
    if xs == [] then rr else AddTasks(AddTask(rr, xs[0]), xs[1..])
  }

  /** However often a task is offered, it is a member once and counted once. */
  lemma {:induction false} AddTasksCountsEachOnce(rr: RequirementResolver, xs: seq<Task>)
    ensures AddTasks(rr, xs).tasks == rr.tasks + set x | x in xs
    ensures AddTasks(rr, xs).pendingTasks == rr.pendingTasks + |AddTasks(rr, xs).tasks - rr.tasks|
    decreases |xs|
  {
    if xs == [] {
      assert AddTasks(rr, xs).tasks - rr.tasks == {};
    } else {
      var rr1 := AddTask(rr, xs[0]);
      AddTasksCountsEachOnce(rr1, xs[1..]);
      var all := AddTasks(rr, xs).tasks;
      assert (set x | x in xs) == {xs[0]} + set x | x in xs[1..];
      if xs[0] !in rr.tasks {
        assert all - rr.tasks == (all - rr1.tasks) + {xs[0]};
        assert xs[0] !in all - rr1.tasks;
      } else {
        assert rr1 == rr;
      }
    }
  }

  /** What `finished` did. */
  datatype FinishResult =
    | FallbackAdded(task: Task)   // a new canonical task joined; completion deferred
    | Completed                   // handed to the aggregate's own completion

  /** Completion of a resolver. With no member pending, the counter flips from 0
      to -1 and the canonical task for the requirement is fetched or created; if
      it is not yet a member it becomes the fallback member. */
  function Finished(b: Builder, rr: RequirementResolver): (res: (Builder, RequirementResolver, FinishResult))
    ensures rr.pendingTasks != 0 ==> res == (b, rr, Completed)
    ensures rr.pendingTasks == 0 ==>
      var (b1, t) := GetOrCreateTaskResolving(b, rr.requirement, rr.parentTask);
      && res.0 == b1
      && res.1.pendingTasks == -1
      && res.1.requirement == rr.requirement && res.1.parentTask == rr.parentTask
      && (t !in rr.tasks ==> res.2 == FallbackAdded(t) && res.1.tasks == rr.tasks + {t})
      && (t in rr.tasks ==> res.2 == Completed && res.1.tasks == rr.tasks)
  {
    if rr.pendingTasks == 0 then
      var flipped := rr.(pendingTasks := -1);
      var (b1, t) := GetOrCreateTaskResolving(b, rr.requirement, rr.parentTask);
      if t !in flipped.tasks then (b1, flipped.(tasks := flipped.tasks + {t}), FallbackAdded(t))
      else (b1, flipped, Completed)
    else
      (b, rr, Completed)
  }

  /** Calls `finished` n times in a row; returns how many added a fallback. */
  function FallbacksAdded(b: Builder, rr: RequirementResolver, n: nat): nat
    decreases n
  {
    if n == 0 then 0
    else
      var (b1, rr1, f) := Finished(b, rr);
      (if f.FallbackAdded? then 1 else 0) + FallbacksAdded(b1, rr1, n - 1)
  }

  /** Once the counter is negative, `finished` changes nothing. */
  lemma {:induction false} NoFallbackAfterFlip(b: Builder, rr: RequirementResolver, n: nat)
    requires rr.pendingTasks < 0
    ensures FallbacksAdded(b, rr, n) == 0
    decreases n
  {
    if n > 0 {
      NoFallbackAfterFlip(b, rr, n - 1);
    }
  }

  /** The fallback is attempted at most once, however often `finished` runs. */
  lemma {:induction false} FallbackAtMostOnce(b: Builder, rr: RequirementResolver, n: nat)
    requires rr.pendingTasks <= 0
    ensures FallbacksAdded(b, rr, n) <= 1
    decreases n
  {
    if n > 0 {
      var (b1, rr1, f) := Finished(b, rr);
      if rr.pendingTasks == 0 {
        NoFallbackAfterFlip(b1, rr1, n - 1);
      } else {
        FallbackAtMostOnce(b1, rr1, n - 1);
      }
    }
  }

  /** What can happen to a resolver after it is built: one of its members
      completes, or `finished` is called. */
  datatype ResolverEvent = MemberDone | FinishCall

  /** A member completing: the aggregate counts down one pending member; a
      counter at zero or below is left alone. */
  function MemberFinished(rr: RequirementResolver): (r: RequirementResolver)
    ensures r.tasks == rr.tasks && r.requirement == rr.requirement && r.parentTask == rr.parentTask
    ensures rr.pendingTasks > 0 ==> r.pendingTasks == rr.pendingTasks - 1 >= 0
    ensures rr.pendingTasks <= 0 ==> r == rr
  {
    if rr.pendingTasks > 0 then rr.(pendingTasks := rr.pendingTasks - 1) else rr
  }

  /** Plays a sequence of events on a resolver; the count is the number of
      fallback tasks added. */
  function RunResolver(b: Builder, rr: RequirementResolver, events: seq<ResolverEvent>): (Builder, RequirementResolver, nat)
    decreases |events|
  {
    if events == [] then (b, rr, 0)
    else if events[0] == MemberDone then RunResolver(b, MemberFinished(rr), events[1..])
    else
      var (b1, rr1, f) := Finished(b, rr);
      var (b2, rr2, n) := RunResolver(b1, rr1, events[1..]);
      (b2, rr2, n + (if f.FallbackAdded? then 1 else 0))
  }

  /** Whatever members complete and however often `finished` runs, in any
      order, a resolver whose counter is not negative adds at most one fallback
      task, and one already flipped adds none. */
  lemma {:induction false} RunAddsFallbackAtMostOnce(b: Builder, rr: RequirementResolver, events: seq<ResolverEvent>)
    ensures RunResolver(b, rr, events).2 <= if rr.pendingTasks >= 0 then 1 else 0
    decreases |events|
  {
    if events != [] {
      if events[0] == MemberDone {
        RunAddsFallbackAtMostOnce(b, MemberFinished(rr), events[1..]);
      } else {
        var (b1, rr1, f) := Finished(b, rr);
        RunAddsFallbackAtMostOnce(b1, rr1, events[1..]);
      }
    }
  }

  /** `n` member completions in a row. */
  function MemberDones(n: nat): (es: seq<ResolverEvent>)
    ensures |es| == n && forall i :: 0 <= i < n ==> es[i] == MemberDone
  {
    seq(n, _ => MemberDone)
  }

  /** Once every pending member has completed, `finished` flips the counter,
      and it adds the canonical task as fallback exactly when that task was not
      already a member. */
  lemma {:induction false} CountDownReachesFlip(b: Builder, rr: RequirementResolver, n: nat)
    requires rr.pendingTasks == n
    ensures var (b1, rr1, k) := RunResolver(b, rr, MemberDones(n) + [FinishCall]);
      && rr1.pendingTasks == -1
      && (k == 1 <==> ChildTask(rr.requirement, rr.parentTask) !in rr.tasks)
      && (k == 0 <==> ChildTask(rr.requirement, rr.parentTask) in rr.tasks)
    decreases n
  {
    if n == 0 {
      assert MemberDones(n) + [FinishCall] == [FinishCall];
    } else {
      var events := MemberDones(n) + [FinishCall];
      assert events[0] == MemberDone;
      assert events[1..] == MemberDones(n - 1) + [FinishCall];
      CountDownReachesFlip(b, MemberFinished(rr), n - 1);
    }
  }

  /** Resolves `r` for `dependent` (none for a root request). A requirement the
      dependent already has among its parents yields a producer that only ever
      fails; otherwise one or more usable existing tasks are wrapped in a
      resolver, and with none usable the canonical task is fetched or created. */
  function ResolveRequirement(b: Builder, r: Requirement, dependent: Option<Task>): (res: (Builder, Producer))
    ensures dependent.Some? && HasParentRequirement(dependent.value, r) ==> res == (b, LoopFailure(r))
    ensures !(dependent.Some? && HasParentRequirement(dependent.value, r)) ==>
      var usable := UsableTasks(GetTasksResolving(b, r), dependent);
      && (usable != {} ==>
            && res.0 == b
            && res.1.Aggregate?
            && res.1.resolver.tasks == usable
            && res.1.resolver.pendingTasks == |usable|
            && res.1.resolver.requirement == r && res.1.resolver.parentTask == dependent)
      && (usable == {} ==>
            res == (GetOrCreateTaskResolving(b, r, dependent).0, Direct(ChildTask(r, dependent))))
    ensures res.1.Aggregate? ==> forall t :: t in res.1.resolver.tasks ==>
      t in GetTasksResolving(b, r) && !(dependent.Some? && HasParentTask(dependent.value, t))
  {
    if dependent.Some? && HasParentRequirement(dependent.value, r) then
      (b, LoopFailure(r))
    else
      var usable := UsableTasks(GetTasksResolving(b, r), dependent);
      if usable != {} then
        (b, Aggregate(RequirementResolver(r, dependent, usable, |usable|)))
      else
        var (b1, t) := GetOrCreateTaskResolving(b, r, dependent);
        (b1, Direct(t))
  }

  /** The resolver-building loop: visit each indexed task once, skip those that
      would close a loop, and add the rest to a resolver created on first use. */
  method CollectResolver(b: Builder, r: Requirement, dependent: Option<Task>) returns (resolver: Option<RequirementResolver>)
    ensures resolver.None? <==> UsableTasks(GetTasksResolving(b, r), dependent) == {}
    ensures resolver.Some? ==>
      var usable := UsableTasks(GetTasksResolving(b, r), dependent);
      resolver.value == RequirementResolver(r, dependent, usable, |usable|)
  {
    var all := GetTasksResolving(b, r);
    var rest := all;
    resolver := None;
    while rest != {}
      invariant rest <= all
      invariant resolver.None? <==> UsableTasks(all - rest, dependent) == {}
      invariant resolver.Some? ==>
        var seen := UsableTasks(all - rest, dependent);
        resolver.value == RequirementResolver(r, dependent, seen, |seen|)
      decreases rest
    {
      var t :| t in rest;
      var before := UsableTasks(all - rest, dependent);
      rest := rest - {t};
      if !(dependent.Some? && HasParentTask(dependent.value, t)) {
        assert UsableTasks(all - rest, dependent) == before + {t};
        assert t !in before;
        if resolver.None? {
          resolver := Some(NewResolver(r, dependent));
        }
        resolver := Some(AddTask(resolver.value, t));
      } else {
        assert UsableTasks(all - rest, dependent) == before;
      }
    }
    assert all - rest == all;
  }

  /** The producer for a rejected loop: adding a callback tells it, inline, that
      the requirement failed; nothing else is touched. */
  function LoopFailureAddCallback(b: Builder, c: Context, r: Requirement, callback: CallbackBody): (o: Outcome)
    ensures var inner := callback(b, c.(depth := c.depth + 1), FailedNote(r));
      && o.builder == inner.builder
      && (ReturnsAtDepth(inner, c.depth + 1) ==> ReturnsAtDepth(o, c.depth))
  {
    Failed(b, c, callback, r)
  }

  /** A root request: resolve with no dependent, then make sure a background job
      is running if the pool has room. */
  function AddTarget(b: Builder, r: Requirement): (res: (Builder, Producer))
    ensures !res.1.LoopFailure?
    ensures GetTasksResolving(res.0, r) != {}
    ensures res.1.Direct? ==> res.1.task == ChildTask(r, None) && res.1.task in GetTasksResolving(res.0, r)
    ensures res.1.Aggregate? ==> res.1.resolver.tasks == GetTasksResolving(b, r) && res.0.requirements == b.requirements
    ensures forall q :: GetTasksResolving(b, q) <= GetTasksResolving(res.0, q)
    ensures res.0.maxAdditionalThreads == b.maxAdditionalThreads
  {
    var (b1, p) := ResolveRequirement(b, r, None);
    (StartBackgroundConstructionJob(b1).0, p)
  }

  /** Resolves root requests one after another. Every requirement asked for
      ends up with at least one indexed task, and no indexed task is lost. */
  function ResolveAll(b: Builder, rs: seq<Requirement>): (res: Builder)
    ensures forall q :: GetTasksResolving(b, q) <= GetTasksResolving(res, q)
    ensures forall q :: q in rs ==> GetTasksResolving(res, q) != {}
    ensures res.maxAdditionalThreads == b.maxAdditionalThreads
    decreases |rs|
  {
    if rs == [] then b
    else
      var b1 := ResolveRequirement(b, rs[0], None).0;
      ResolveAll(b1, rs[1..])
  }

  /** Several root requests, then one attempt to start a background job. The
      requests are taken in the order given. */
  function AddTargets(b: Builder, rs: seq<Requirement>): (res: Builder)
    ensures forall q :: q in rs ==> GetTasksResolving(res, q) != {}
    ensures forall q :: GetTasksResolving(b, q) <= GetTasksResolving(res, q)
    ensures res.maxAdditionalThreads == b.maxAdditionalThreads
  {
    StartBackgroundConstructionJob(ResolveAll(b, rs)).0
  }

  /** A resolver built by resolution adds at most one fallback over any
      sequence of events, and the fallback point is reached once all its
      members have completed. */
  lemma ResolverFallsBackAtMostOnce(b: Builder, r: Requirement, dependent: Option<Task>, events: seq<ResolverEvent>)
    requires ResolveRequirement(b, r, dependent).1.Aggregate?
    ensures var (b1, p) := ResolveRequirement(b, r, dependent);
      && RunResolver(b1, p.resolver, events).2 <= 1
      && RunResolver(b1, p.resolver, MemberDones(|p.resolver.tasks|) + [FinishCall]).1.pendingTasks == -1
  {
    var (b1, p) := ResolveRequirement(b, r, dependent);
    RunAddsFallbackAtMostOnce(b1, p.resolver, events);
    CountDownReachesFlip(b1, p.resolver, |p.resolver.tasks|);
  }

  /** Memoisation: a requirement resolved from two dependents yields one
      canonical task, created and queued once; the second resolution reuses it
      through a resolver and changes nothing. */
  lemma SecondResolutionReusesTask(b: Builder, r: Requirement, d1: Option<Task>, d2: Option<Task>)
    requires r !in b.requirements
    requires d1.Some? ==> !HasParentRequirement(d1.value, r)
    requires d2.Some? ==> !HasParentRequirement(d2.value, r)
    ensures var (b1, p1) := ResolveRequirement(b, r, d1);
            var (b2, p2) := ResolveRequirement(b1, r, d2);
            && p1 == Direct(ChildTask(r, d1))
            && b1.requirements[r] == {ChildTask(r, d1)}
            && b1.runQueue == b.runQueue + [RunTask(ChildTask(r, d1))]
            && p2 == Aggregate(RequirementResolver(r, d2, {ChildTask(r, d1)}, 1))
            && b2 == b1
  {
    var t := ChildTask(r, d1);
    assert UsableTasks(GetTasksResolving(b, r), d1) == {};
    var (b1, p1) := ResolveRequirement(b, r, d1);
    assert GetTasksResolving(b1, r) == {t};
    if d2.Some? && HasParentTask(d2.value, t) {
      AncestorResolvesChainRequirement(d2.value, t);
    }
    assert UsableTasks(GetTasksResolving(b1, r), d2) == {t};
  }
}

=== FILE: scheduling.dfy ===
/** The run queue and the background-job pool, with every atomic or
    compare-and-swap operation taken as one indivisible step. */
module Scheduling {
  import opened Wrappers
  import opened GraphTypes
  import opened BuilderState
  import opened Exceptions

  function Min(a: int, b: int): int {
    if a <= b then a else b
  }

  /** How many more background jobs the pool may start. */
  function Headroom(b: Builder): nat {
    if b.activeJobCount < b.maxAdditionalThreads then b.maxAdditionalThreads - b.activeJobCount else 0
  }

  /** Nothing but the job accounting differs. */
  predicate OnlyJobsChanged(a: Builder, b: Builder) {
    && SameResolutionState(a, b)
    && a.runQueue == b.runQueue
    && a.scheduledSteps == b.scheduledSteps
    && a.maxAdditionalThreads == b.maxAdditionalThreads
    && a.poisoned == b.poisoned
  }

  /** Claims one pool slot and launches a background job, if the active count is
      below the configured maximum. Reports whether a job was started. */
  function StartBackgroundConstructionJob(b: Builder): (r: (Builder, bool))
    ensures r.1 <==> b.activeJobCount < b.maxAdditionalThreads
    ensures r.1 ==> r.0.activeJobCount == b.activeJobCount + 1 <= b.maxAdditionalThreads
    ensures r.1 ==> && r.0.activeJobs == b.activeJobs + {b.nextJobId}
                    && r.0.backgroundJobs == b.backgroundJobs + {b.nextJobId}
                    && r.0.pooled == b.pooled + {b.nextJobId}
                    && r.0.nextJobId == b.nextJobId + 1
    ensures !r.1 ==> r.0 == b
    ensures OnlyJobsChanged(r.0, b)
  {
    if b.activeJobCount < b.maxAdditionalThreads then
      var id := b.nextJobId;
      (b.(activeJobCount := b.activeJobCount + 1,
          activeJobs := b.activeJobs + {id},
          backgroundJobs := b.backgroundJobs + {id},
          pooled := b.pooled + {id},
          nextJobId := id + 1), true)
    else
      (b, false)
  }

  /** Appends a work item; only a queue that already held work triggers an
      attempt to start another job. Counts one more scheduled step. */
  function AddToRunQueue(b: Builder, item: Runnable): (r: Builder)
    ensures r.runQueue == b.runQueue + [item]
    ensures r.scheduledSteps == b.scheduledSteps + 1
    ensures SameResolutionState(r, b)
    ensures r.maxAdditionalThreads == b.maxAdditionalThreads && r.poisoned == b.poisoned
    ensures |b.runQueue| == 0 ==>
      && r.activeJobCount == b.activeJobCount && r.activeJobs == b.activeJobs
      && r.pooled == b.pooled && r.backgroundJobs == b.backgroundJobs && r.nextJobId == b.nextJobId
    ensures |b.runQueue| > 0 ==>
      r.activeJobCount == b.activeJobCount + (if b.activeJobCount < b.maxAdditionalThreads then 1 else 0)
  {
    var dontSpawn := |b.runQueue| == 0;
    var queued := b.(runQueue := b.runQueue + [item]);
    var spawned := if dontSpawn then queued else StartBackgroundConstructionJob(queued).0;
    spawned.(scheduledSteps := spawned.scheduledSteps + 1)
  }

  /** The background-build loop from position k of the queue: one start attempt
      per remaining queued item, stopping at the first refusal. */
  function StartJobsFrom(b: Builder, k: nat): (r: Builder)
    requires k <= |b.runQueue|
    ensures r.activeJobCount == b.activeJobCount + Min(|b.runQueue| - k, Headroom(b))
    ensures OnlyJobsChanged(r, b)
    ensures b.activeJobs <= r.activeJobs
    decreases |b.runQueue| - k
  {
    if k < |b.runQueue| then
      var (b1, started) := StartBackgroundConstructionJob(b);
      if started then StartJobsFrom(b1, k + 1) else b1
    else
      b
  }

  /** Starts as many background jobs as there are queued items, up to the
      pool's headroom. */
  function StartBackgroundBuild(b: Builder): (r: Builder)
    ensures r.activeJobCount == b.activeJobCount + Min(|b.runQueue|, Headroom(b))
    ensures OnlyJobsChanged(r, b)
    ensures b.activeJobs <= r.activeJobs
  {
    if |b.runQueue| == 0 then b else StartJobsFrom(b, 0)
  }

  /** Reconfigures the pool size; a negative size is rejected. */
  function SetMaxAdditionalThreads(b: Builder, n: int): (r: Result<Builder, BuildError>)
    ensures n < 0 <==> r.Failure?
    ensures r.Success? ==> r.value.maxAdditionalThreads == n
    ensures r.Success? ==> r.value.activeJobCount
                           == b.activeJobCount + Min(|b.runQueue|, if b.activeJobCount < n then n - b.activeJobCount else 0)
    ensures r.Success? ==> SameResolutionState(r.value, b) && r.value.runQueue == b.runQueue
  {
    if n < 0 then Failure(IllegalArgument("maxAdditionalThreads"))
    else Success(StartBackgroundBuild(b.(maxAdditionalThreads := n)))
  }

  /** Stops background building: the pool size becomes zero and every job
      registered as active is poisoned and forgotten. Nothing is rolled back. */
  function CancelActiveBuild(b: Builder): (r: Builder)
    ensures r.maxAdditionalThreads == 0 && r.activeJobs == {}
    ensures b.activeJobs <= r.poisoned
    ensures b.activeJobCount >= 0 ==> r.activeJobCount == b.activeJobCount
    ensures SameResolutionState(r, b) && r.runQueue == b.runQueue
  {
    var stopped := SetMaxAdditionalThreads(b, 0).value;
    stopped.(poisoned := stopped.poisoned + stopped.activeJobs, activeJobs := {})
  }

  /** One work item taken from the head of the queue and run by the
      collaborator `exec`; a completed run counts one completed step. The
      boolean is true when an item was taken. */
  function BuildGraph(b: Builder, c: Context, exec: (Builder, Context, Runnable) -> Outcome): (r: (Outcome, bool))
    ensures |b.runQueue| == 0 ==> r == (Returned(b, c), false)
    ensures |b.runQueue| > 0 ==>
      var o := exec(b.(runQueue := b.runQueue[1..]), c, b.runQueue[0]);
      && r.1
      && (o.Returned? ==> r.0 == Returned(o.builder.(completedSteps := o.builder.completedSteps + 1), o.context))
      && (o.Threw? ==> r.0 == o)
  {
    if |b.runQueue| == 0 then (Returned(b, c), false)
    else
      var item := b.runQueue[0];
      match exec(b.(runQueue := b.runQueue[1..]), c, item)
      case Returned(b1, c1) => (Returned(b1.(completedSteps := b1.completedSteps + 1), c1), true)
      case Threw(b1, c1, e) => (Threw(b1, c1, e), true)
  }

  /** One iteration of a job's inner loop: run a step; an escaping exception is
      recorded in the root accumulator and ends the block. */
  function JobInnerStep(b: Builder, c: Context, exec: (Builder, Context, Runnable) -> Outcome): (r: (Builder, Context, bool))
    ensures |b.runQueue| == 0 ==> r == (b, c, false)
    ensures |b.runQueue| > 0 && BuildGraph(b, c, exec).0.Returned? ==>
      r == (BuildGraph(b, c, exec).0.builder, BuildGraph(b, c, exec).0.context, true)
    ensures BuildGraph(b, c, exec).0.Threw? ==>
      var o := BuildGraph(b, c, exec).0;
      && !r.2
      && r.0 == o.builder.(exceptions := RecordException(o.builder.exceptions, o.error))
      && Count(r.0.exceptions, o.error) == Count(o.builder.exceptions, o.error) + 1
  {
    var (o, more) := BuildGraph(b, c, exec);
    match o
    case Returned(b1, c1) => (b1, c1, more)
    case Threw(b1, c1, e) => (b1.(exceptions := RecordException(b1.exceptions, e)), c1, false)
  }

  /** The fixed point: no job registered and nothing queued. */
  function IsGraphBuilt(b: Builder): (built: bool)
    ensures b.activeJobs != {} ==> !built
    ensures b.activeJobs == {} ==> (built <==> b.runQueue == [])
  {
    b.activeJobs == {} && |b.runQueue| == 0
  }

  /** The end of one logical block of a job, as written: merge the context's
      exceptions, release one unit of the active count, then resume if late work
      arrived and the pool has room. Every job releases a unit here, including
      the caller's own job, which never claimed one. */
  function JobBlockEnd(b: Builder, c: Context, job: JobId): (r: (Builder, bool))
    ensures r.0.exceptions == Merged(b.exceptions, c.exceptions)
    ensures r.1 <==> |b.runQueue| > 0 && b.activeJobCount - 1 < b.maxAdditionalThreads && job !in b.poisoned
    ensures r.0.activeJobCount == b.activeJobCount - (if r.1 then 0 else 1)
    ensures r.0.runQueue == b.runQueue && r.0.activeJobs == b.activeJobs
  {
    var merged := b.(exceptions := Merged(b.exceptions, c.exceptions));
    var activeJobs := merged.activeJobCount - 1;
    var released := merged.(activeJobCount := activeJobs, pooled := merged.pooled - {job});
    if |released.runQueue| > 0 && activeJobs < released.maxAdditionalThreads && job !in released.poisoned then
      (released.(activeJobCount := activeJobs + 1,
                 pooled := if job in b.backgroundJobs then released.pooled + {job} else released.pooled), true)
    else
      (released, false)
  }

  /** The end of a logical block with the caller's job kept out of the pool
      accounting: a background job behaves as written; the caller's job only
      merges its exceptions and resumes while work remains. */
  function JobBlockEndCorrected(b: Builder, c: Context, job: JobId): (r: (Builder, bool))
    ensures r.0.exceptions == Merged(b.exceptions, c.exceptions)
    ensures job !in b.backgroundJobs ==>
      && r.0.activeJobCount == b.activeJobCount && r.0.pooled == b.pooled
      && (r.1 <==> |b.runQueue| > 0 && job !in b.poisoned)
    ensures job in b.backgroundJobs ==> r == JobBlockEnd(b, c, job)
    ensures r.0.runQueue == b.runQueue && r.0.activeJobs == b.activeJobs
  {
    if job in b.backgroundJobs then JobBlockEnd(b, c, job)
    else (b.(exceptions := Merged(b.exceptions, c.exceptions)), |b.runQueue| > 0 && job !in b.poisoned)
  }

  /** A job leaving the active set when it stops. */
  function JobExit(b: Builder, job: JobId): (r: Builder)
    ensures r.activeJobs == b.activeJobs - {job}
    ensures r.activeJobCount == b.activeJobCount && r.runQueue == b.runQueue
  {
    b.(activeJobs := b.activeJobs - {job})
  }

  /** The caller joining the build: its job is registered as active but claims
      no pool slot. */
  function CallerJobStart(b: Builder): (r: (Builder, JobId))
    ensures r.1 == b.nextJobId && r.0.activeJobs == b.activeJobs + {r.1}
    ensures r.0.activeJobCount == b.activeJobCount && r.0.pooled == b.pooled
    ensures r.0.backgroundJobs == b.backgroundJobs && r.0.nextJobId == b.nextJobId + 1
  {
    var id := b.nextJobId;
    (b.(activeJobs := b.activeJobs + {id}, nextJobId := id + 1), id)
  }
}

=== FILE: timeseries_search.dfy ===
/** Matching a time-series document against a search request: a conjunction
    of optional criteria, where an absent (null) criterion places no
    restriction. Wildcard matching and identifier validity on a date are
    oracles supplied by the caller. */
module TimeSeriesSearch {
  import opened Wrappers

  type Date = int

  datatype UniqueIdentifier = UniqueIdentifier(scheme: string, value: string, version: Option<string>)

  datatype Identifier = Identifier(scheme: string, value: string)

  /** An identifier of a document together with its validity dates. */
  datatype IdentifierWithDates = IdentifierWithDates(identifier: Identifier, validFrom: Option<Date>, validTo: Option<Date>)

  datatype PagingRequest = AllItems | Page(page: nat, pagingSize: nat)

  datatype TimeSeriesDocument = TimeSeriesDocument(
    uniqueId: Option<UniqueIdentifier>,
    dataSource: Option<string>,
    dataProvider: Option<string>,
    dataField: Option<string>,
    observationTime: Option<string>,
    identifiers: seq<IdentifierWithDates>)

  /** A search request; `T` is the type of the start and end of the requested
      data range. */
  datatype SearchRequest<T> = SearchRequest(
    pagingRequest: PagingRequest,
    timeSeriesId: Option<UniqueIdentifier>,
    identifiers: Option<seq<Identifier>>,
    identifierValue: Option<string>,
    identifierValidityDate: Option<Date>,
    dataSource: Option<string>,
    dataProvider: Option<string>,
    dataField: Option<string>,
    observationTime: Option<string>,
    start: Option<T>,
    end: Option<T>,
    loadTimeSeries: bool,
    loadEarliestLatest: bool)

  /** `validOn(id, date)`: the identifier is valid on the date. */
  type ValidityOracle = (IdentifierWithDates, Option<Date>) -> bool

  /** `wildcardMatch(pattern, text)`. */
  type WildcardOracle = (string, string) -> bool

  datatype ArgumentError = NullArgument(name: string)

  /** A request with every criterion absent, returning all pages. */
  function EmptyRequest<T>(): (req: SearchRequest<T>)
    ensures !HasCriterion(req)
    ensures req.pagingRequest == AllItems && req.identifierValidityDate.None?
    ensures req.start.None? && req.end.None? && !req.loadTimeSeries && !req.loadEarliestLatest
  {
    SearchRequest(AllItems, None, None, None, None, None, None, None, None, None, None, false, false)
  }

  /** Some document identifier is in `wanted` and valid on `date` (scanned in
      document order, stopping at the first hit). */
  function AnyListedAndValid(ids: seq<IdentifierWithDates>, wanted: seq<Identifier>, date: Option<Date>, validOn: ValidityOracle): (r: bool)
    ensures r <==> exists i :: 0 <= i < |ids| && ids[i].identifier in wanted && validOn(ids[i], date)
    decreases |ids|
  {
    if |ids| == 0 then false
    else if ids[0].identifier in wanted && validOn(ids[0], date) then true
    else AnyListedAndValid(ids[1..], wanted, date, validOn)
  }

  /** Some document identifier's value matches the wildcard pattern. */
  function AnyValueMatches(ids: seq<IdentifierWithDates>, pattern: string, wildcardMatch: WildcardOracle): (r: bool)
    ensures r <==> exists i :: 0 <= i < |ids| && wildcardMatch(pattern, ids[i].identifier.value)
    decreases |ids|
  {
    if |ids| == 0 then false
    else if wildcardMatch(pattern, ids[0].identifier.value) then true
    else AnyValueMatches(ids[1..], pattern, wildcardMatch)
  }

  /** The matching test, criterion by criterion, rejecting at the first one
      that fails. */
  function Matches<T>(req: SearchRequest<T>, doc: TimeSeriesDocument, validOn: ValidityOracle, wildcardMatch: WildcardOracle): (r: bool)
    ensures r ==> && (req.timeSeriesId.None? || req.timeSeriesId == doc.uniqueId)
                  && (req.dataSource.None? || req.dataSource == doc.dataSource)
                  && (req.dataProvider.None? || req.dataProvider == doc.dataProvider)
                  && (req.dataField.None? || req.dataField == doc.dataField)
                  && (req.observationTime.None? || req.observationTime == doc.observationTime)
    ensures r && req.identifiers.Some? ==>
      exists i :: 0 <= i < |doc.identifiers| && doc.identifiers[i].identifier in req.identifiers.value
                  && validOn(doc.identifiers[i], req.identifierValidityDate)
    ensures r && req.identifierValue.Some? ==>
      exists i :: 0 <= i < |doc.identifiers| && wildcardMatch(req.identifierValue.value, doc.identifiers[i].identifier.value)
    ensures (&& req.timeSeriesId.None? && req.identifiers.None? && req.identifierValue.None?
             && req.dataSource.None? && req.dataProvider.None? && req.dataField.None?
             && req.observationTime.None?) ==> r
  {
    if req.timeSeriesId.Some? && Some(req.timeSeriesId.value) != doc.uniqueId then false
    else if req.dataSource.Some? && Some(req.dataSource.value) != doc.dataSource then false
    else if req.dataProvider.Some? && Some(req.dataProvider.value) != doc.dataProvider then false
    else if req.dataField.Some? && Some(req.dataField.value) != doc.dataField then false
    else if req.observationTime.Some? && Some(req.observationTime.value) != doc.observationTime then false
    else if req.identifiers.Some?
         && !AnyListedAndValid(doc.identifiers, req.identifiers.value, req.identifierValidityDate, validOn) then false
    else if req.identifierValue.Some?
         && !AnyValueMatches(doc.identifiers, req.identifierValue.value, wildcardMatch) then false
    else true
  }

  /** The criteria a request may carry. */
  datatype Criterion =
    | TimeSeriesIdCriterion | DataSourceCriterion | DataProviderCriterion | DataFieldCriterion
    | ObservationTimeCriterion | IdentifiersCriterion | IdentifierValueCriterion

  /** An exact criterion: absent, or equal to the document's field. */
  predicate Exact<X(==)>(criterion: Option<X>, field: Option<X>) {
    criterion.None? || criterion == field
  }

  /** Whether the document meets one criterion of the request, stated directly. */
  predicate Satisfies<T>(req: SearchRequest<T>, doc: TimeSeriesDocument, validOn: ValidityOracle, wildcardMatch: WildcardOracle, c: Criterion) {
    match c
    case TimeSeriesIdCriterion => Exact(req.timeSeriesId, doc.uniqueId)
    case DataSourceCriterion => Exact(req.dataSource, doc.dataSource)
    case DataProviderCriterion => Exact(req.dataProvider, doc.dataProvider)
    case DataFieldCriterion => Exact(req.dataField, doc.dataField)
    case ObservationTimeCriterion => Exact(req.observationTime, doc.observationTime)
    case IdentifiersCriterion =>
      req.identifiers.None? ||
      exists d :: d in doc.identifiers && d.identifier in req.identifiers.value && validOn(d, req.identifierValidityDate)
    case IdentifierValueCriterion =>
      req.identifierValue.None? ||
      exists d :: d in doc.identifiers && wildcardMatch(req.identifierValue.value, d.identifier.value)
  }

  /** A document matches exactly when it meets every criterion. */
  lemma MatchesIffAllCriteria<T>(req: SearchRequest<T>, doc: TimeSeriesDocument, validOn: ValidityOracle, wildcardMatch: WildcardOracle)
    ensures Matches(req, doc, validOn, wildcardMatch) <==> forall c :: Satisfies(req, doc, validOn, wildcardMatch, c)
  {
    if req.identifiers.Some? {
      var found := AnyListedAndValid(doc.identifiers, req.identifiers.value, req.identifierValidityDate, validOn);
      if !found {
        assert !Satisfies(req, doc, validOn, wildcardMatch, IdentifiersCriterion);
      } else {
        var i :| 0 <= i < |doc.identifiers| && doc.identifiers[i].identifier in req.identifiers.value
                 && validOn(doc.identifiers[i], req.identifierValidityDate);
        assert Satisfies(req, doc, validOn, wildcardMatch, IdentifiersCriterion);
      }
    }
    if req.identifierValue.Some? {
      var found := AnyValueMatches(doc.identifiers, req.identifierValue.value, wildcardMatch);
      if !found {
        assert !Satisfies(req, doc, validOn, wildcardMatch, IdentifierValueCriterion);
      } else {
        var i :| 0 <= i < |doc.identifiers| && wildcardMatch(req.identifierValue.value, doc.identifiers[i].identifier.value);
        assert Satisfies(req, doc, validOn, wildcardMatch, IdentifierValueCriterion);
      }
    }
    if !Matches(req, doc, validOn, wildcardMatch) {
      if !Exact(req.timeSeriesId, doc.uniqueId) {
        assert !Satisfies(req, doc, validOn, wildcardMatch, TimeSeriesIdCriterion);
      } else if !Exact(req.dataSource, doc.dataSource) {
        assert !Satisfies(req, doc, validOn, wildcardMatch, DataSourceCriterion);
      } else if !Exact(req.dataProvider, doc.dataProvider) {
        assert !Satisfies(req, doc, validOn, wildcardMatch, DataProviderCriterion);
      } else if !Exact(req.dataField, doc.dataField) {
        assert !Satisfies(req, doc, validOn, wildcardMatch, DataFieldCriterion);
      } else if !Exact(req.observationTime, doc.observationTime) {
        assert !Satisfies(req, doc, validOn, wildcardMatch, ObservationTimeCriterion);
      }
    }
  }

  /** A request without criteria matches every document. */
  lemma NoCriteriaMatchesEverything<T>(req: SearchRequest<T>, doc: TimeSeriesDocument, validOn: ValidityOracle, wildcardMatch: WildcardOracle)
    requires req.timeSeriesId.None? && req.identifiers.None? && req.identifierValue.None?
    requires req.dataSource.None? && req.dataProvider.None? && req.dataField.None? && req.observationTime.None?
    ensures Matches(req, doc, validOn, wildcardMatch)
  {
    MatchesIffAllCriteria(req, doc, validOn, wildcardMatch);
  }

  /** A present exact criterion that differs from the document's field rejects it. */
  lemma ExactMismatchRejects<T>(req: SearchRequest<T>, doc: TimeSeriesDocument, validOn: ValidityOracle, wildcardMatch: WildcardOracle)
    requires || (req.timeSeriesId.Some? && req.timeSeriesId != doc.uniqueId)
             || (req.dataSource.Some? && req.dataSource != doc.dataSource)
             || (req.dataProvider.Some? && req.dataProvider != doc.dataProvider)
             || (req.dataField.Some? && req.dataField != doc.dataField)
             || (req.observationTime.Some? && req.observationTime != doc.observationTime)
    ensures !Matches(req, doc, validOn, wildcardMatch)
  {
  }

  /** A present but empty identifier list matches nothing. */
  lemma EmptyIdentifierListMatchesNothing<T>(req: SearchRequest<T>, doc: TimeSeriesDocument, validOn: ValidityOracle, wildcardMatch: WildcardOracle)
    requires req.identifiers == Some([])
    ensures !Matches(req, doc, validOn, wildcardMatch)
  {
  }

  /** Paging, the data range and the load flags play no part in matching. */
  lemma NonCriteriaIgnored<T>(a: SearchRequest<T>, b: SearchRequest<T>, doc: TimeSeriesDocument, validOn: ValidityOracle, wildcardMatch: WildcardOracle)
    requires a.timeSeriesId == b.timeSeriesId && a.identifiers == b.identifiers
    requires a.identifierValue == b.identifierValue && a.identifierValidityDate == b.identifierValidityDate
    requires a.dataSource == b.dataSource && a.dataProvider == b.dataProvider
    requires a.dataField == b.dataField && a.observationTime == b.observationTime
    ensures Matches(a, doc, validOn, wildcardMatch) == Matches(b, doc, validOn, wildcardMatch)
  {
  }

  /** Some criterion is present, so `matches` reads the document. */
  predicate HasCriterion<T>(req: SearchRequest<T>) {
    || req.timeSeriesId.Some? || req.dataSource.Some? || req.dataProvider.Some?
    || req.dataField.Some? || req.observationTime.Some?
    || req.identifiers.Some? || req.identifierValue.Some?
  }

  /** How matching fails on a null document: the first present criterion
      dereferences it. */
  datatype MatchError = NullDocument

  /** `matches` on a document that may be null. A null document is read only
      by a present criterion, so without criteria the answer is true. */
  function MatchesOrNull<T>(req: SearchRequest<T>, doc: Option<TimeSeriesDocument>, validOn: ValidityOracle, wildcardMatch: WildcardOracle): (r: Result<bool, MatchError>)
    ensures doc.None? ==> (r.Failure? <==> HasCriterion(req))
    ensures doc.None? && r.Success? ==> r.value
    ensures doc.Some? ==> r.Success? && (r.value <==> Matches(req, doc.value, validOn, wildcardMatch))
  {
    match doc
    case None => if HasCriterion(req) then Failure(NullDocument) else Success(true)
    case Some(d) => Success(Matches(req, d, validOn, wildcardMatch))
  }

  /** A document with every field absent and no identifiers. */
  function BlankDocument(): TimeSeriesDocument {
    TimeSeriesDocument(None, None, None, None, None, [])
  }

  /** A null document is accepted exactly when the request accepts every
      document, and it is never answered with false. */
  lemma NullDocumentAcceptedIffAllAccepted<T>(req: SearchRequest<T>, validOn: ValidityOracle, wildcardMatch: WildcardOracle)
    ensures MatchesOrNull(req, None, validOn, wildcardMatch).Success?
            <==> forall d :: Matches(req, d, validOn, wildcardMatch)
    ensures MatchesOrNull(req, None, validOn, wildcardMatch) != Success(false)
  {
    if HasCriterion(req) {
      assert !Matches(req, BlankDocument(), validOn, wildcardMatch);
    } else {
      forall d | true ensures Matches(req, d, validOn, wildcardMatch) {
        NoCriteriaMatchesEverything(req, d, validOn, wildcardMatch);
      }
    }
  }

  /** Appends one identifier, creating the list when absent. */
  function AddIdentifier<T>(req: SearchRequest<T>, identifier: Option<Identifier>): (r: Result<SearchRequest<T>, ArgumentError>)
    ensures identifier.None? <==> r.Failure?
    ensures r.Success? ==> && r.value.identifiers.Some?
                           && r.value.identifiers.value == req.identifiers.GetOr([]) + [identifier.value]
                           && r.value == req.(identifiers := r.value.identifiers)
  {
    if identifier.None? then Failure(NullArgument("identifier"))
    else Success(req.(identifiers := Some(req.identifiers.GetOr([]) + [identifier.value])))
  }

  /** Replaces the identifier list by a fresh list of the given identifiers, in
      order. A null collection is rejected. */
  function SetIdentifiers<T>(req: SearchRequest<T>, identifiers: Option<seq<Identifier>>): (r: Result<SearchRequest<T>, ArgumentError>)
    ensures identifiers.None? <==> r.Failure?
    ensures r.Success? ==> r.value.identifiers == identifiers && r.value == req.(identifiers := identifiers)
  {
    if identifiers.None? then Failure(NullArgument("identifiers"))
    else Success(req.(identifiers := Some(identifiers.value)))
  }

  /** Adding to a list set just before is the same as setting the longer list. */
  lemma SetThenAdd<T>(req: SearchRequest<T>, ids: seq<Identifier>, x: Identifier)
    ensures AddIdentifier(SetIdentifiers(req, Some(ids)).value, Some(x)) == SetIdentifiers(req, Some(ids + [x]))
  {
  }

  /** Once an identifier list is present, adding to it can only widen the
      matches. */
  lemma AddIdentifierWidens<T>(req: SearchRequest<T>, x: Identifier, doc: TimeSeriesDocument, validOn: ValidityOracle, wildcardMatch: WildcardOracle)
    requires req.identifiers.Some?
    requires Matches(req, doc, validOn, wildcardMatch)
    ensures Matches(AddIdentifier(req, Some(x)).value, doc, validOn, wildcardMatch)
  {
    var wider := AddIdentifier(req, Some(x)).value;
    var i :| 0 <= i < |doc.identifiers| && doc.identifiers[i].identifier in req.identifiers.value
             && validOn(doc.identifiers[i], req.identifierValidityDate);
    assert doc.identifiers[i].identifier in wider.identifiers.value;
  }

  /** A request built from one identifier matches a document only through that
      identifier. */
  lemma SingleIdentifierRequest<T>(x: Identifier, doc: TimeSeriesDocument, validOn: ValidityOracle, wildcardMatch: WildcardOracle)
    ensures var req := AddIdentifier(EmptyRequest<T>(), Some(x)).value;
      Matches(req, doc, validOn, wildcardMatch) <==>
        exists i :: 0 <= i < |doc.identifiers| && doc.identifiers[i].identifier == x && validOn(doc.identifiers[i], None)
  {
    var req := AddIdentifier(EmptyRequest<T>(), Some(x)).value;
    assert EmptyRequest<T>().identifiers.GetOr([]) + [x] == [x];
    if Matches(req, doc, validOn, wildcardMatch) {
      var i :| 0 <= i < |doc.identifiers| && doc.identifiers[i].identifier in [x] && validOn(doc.identifiers[i], None);
      assert doc.identifiers[i].identifier == x;
    }
  }
}

=== FILE: trampoline.dfy ===
/** The depth-bounded trampoline of a building context: `pump`, `resolved` and
    `failed` count their nesting in the context's depth; a pump nested deeper
    than the bound is deferred to the run queue instead of run. */
module Trampoline {
  import opened GraphTypes
  import opened BuilderState
  import opened Scheduling

  /** The collaborator behind a pump: produce the next alternative. */
  type PumpBody = (Builder, Context, PumpRef) -> Outcome

  /** The collaborator behind a callback: react to a notification. */
  type CallbackBody = (Builder, Context, Notification) -> Outcome

  /** The decrement that follows a nested call; an exception skips it. */
  function Unwind(o: Outcome): (r: Outcome)
    ensures o.Returned? ==> r == Returned(o.builder, o.context.(depth := o.context.depth - 1))
    ensures o.Threw? ==> r == o
  {
    match o
    case Returned(b, c) => Returned(b, c.(depth := c.depth - 1))
    case Threw(_, _, _) => o
  }

  /** Asks `p` for its next alternative: inline when the incremented depth is
      within the bound, otherwise as exactly one deferred item on the queue. */
  function Pump(b: Builder, c: Context, p: PumpRef, body: PumpBody): (r: Outcome)
    ensures c.depth + 1 > MaxCallbackDepth ==>
      && r.Returned? && r.context == c
      && r.builder.runQueue == b.runQueue + [DeferredPump(p)]
      && r.builder.scheduledSteps == b.scheduledSteps + 1
      && SameResolutionState(r.builder, b)
    ensures c.depth + 1 <= MaxCallbackDepth ==>
      var inner := body(b, c.(depth := c.depth + 1), p);
      && r.builder == inner.builder
      && (inner.Threw? ==> r == inner)
      && (ReturnsAtDepth(inner, c.depth + 1) ==> ReturnsAtDepth(r, c.depth))
  {
    var entered := c.(depth := c.depth + 1);
    if entered.depth > MaxCallbackDepth then
      Returned(AddToRunQueue(b, DeferredPump(p)), entered.(depth := entered.depth - 1))
    else
      Unwind(body(b, entered, p))
  }

  /** Tells `callback` that `r` resolved to `value`, with `pump` as the source
      of further alternatives. Always inline. */
  function Resolved(b: Builder, c: Context, callback: CallbackBody, r: Requirement, value: ResolvedValue, pump: PumpRef): (o: Outcome)
    ensures var inner := callback(b, c.(depth := c.depth + 1), ResolvedNote(r, value, pump));
      && o.builder == inner.builder
      && (inner.Threw? ==> o == inner)
      && (ReturnsAtDepth(inner, c.depth + 1) ==> ReturnsAtDepth(o, c.depth))
  {
    Unwind(callback(b, c.(depth := c.depth + 1), ResolvedNote(r, value, pump)))
  }

  /** Tells `callback` that `r` failed, or has no further alternatives. Always
      inline. */
  function Failed(b: Builder, c: Context, callback: CallbackBody, r: Requirement): (o: Outcome)
    ensures var inner := callback(b, c.(depth := c.depth + 1), FailedNote(r));
      && o.builder == inner.builder
      && (inner.Threw? ==> o == inner)
      && (ReturnsAtDepth(inner, c.depth + 1) ==> ReturnsAtDepth(o, c.depth))
  {
    Unwind(callback(b, c.(depth := c.depth + 1), FailedNote(r)))
  }

  /** A pump whose body immediately pumps again, n levels deep: the shape of a
      long search for alternatives. */
  function ChainedPump(b: Builder, c: Context, p: PumpRef, n: nat): Outcome
    decreases n
  {
    Pump(b, c, p, (b1: Builder, c1: Context, p1: PumpRef) =>
      if n == 0 then Returned(b1, c1) else ChainedPump(b1, c1, p1, n - 1))
  }

  /** However long the chain, the trampoline returns to the entry depth, and it
      cuts the chain with exactly one deferred pump precisely when the chain
      would nest past the bound. */
  lemma {:induction false} ChainedPumpDefersOnce(b: Builder, c: Context, p: PumpRef, n: nat)
    ensures ReturnsAtDepth(ChainedPump(b, c, p, n), c.depth)
    ensures c.depth + n >= MaxCallbackDepth ==>
      && ChainedPump(b, c, p, n).builder.runQueue == b.runQueue + [DeferredPump(p)]
      && ChainedPump(b, c, p, n).builder.scheduledSteps == b.scheduledSteps + 1
    ensures c.depth + n < MaxCallbackDepth ==> ChainedPump(b, c, p, n).builder == b
    decreases n
  {
    if c.depth + 1 <= MaxCallbackDepth && n > 0 {
      ChainedPumpDefersOnce(b, c.(depth := c.depth + 1), p, n - 1);
    }
  }
}

=== FILE: working_days.dfy ===
/** Working-day adjustment of the security generator. A date is a count of
    days since 1970-01-01, which was a Thursday; days of the week are numbered
    as in ISO 8601, Monday = 1 to Sunday = 7. Holidays come from a holiday
    source supplied by the caller. */
module WorkingDays {
  type Date = int
  type Currency = string

  /** `isHoliday(date, currency)`: the date is a holiday in the currency's zone. */
  type HolidaySource = (Date, Currency) -> bool

  /** ISO day of the week of a date; day 0 is a Thursday (4). */
  function DayOfWeek(d: Date): (dow: int)
    ensures 1 <= dow <= 7
    ensures d == 0 ==> dow == 4
  {
    (d + 3) % 7 + 1
  }

  /** The weekday convention: Monday to Friday are workdays whatever the
      currency. */
  function IsWorkday(dow: int, currency: Currency): (workday: bool)
    ensures 1 <= dow <= 7 ==> (workday <==> dow != 6 && dow != 7)
  {
    dow < 6
  }

  /** Of the seven days of the week exactly Monday to Friday are workdays, and
      the currency plays no part. */
  lemma WorkdayIsMondayToFriday(d: Date, c1: Currency, c2: Currency)
    ensures IsWorkday(DayOfWeek(d), c1) <==> 1 <= DayOfWeek(d) <= 5
    ensures IsWorkday(DayOfWeek(d), c1) == IsWorkday(DayOfWeek(d), c2)
  {
  }

  /** The holiday source without holidays. */
  function NoHolidays(): HolidaySource {
    (_, _) => false
  }

  /** A date to which a generated security may be adjusted. */
  predicate Qualifies(d: Date, currency: Currency, isHoliday: HolidaySource) {
    IsWorkday(DayOfWeek(d), currency) && !isHoliday(d, currency)
  }

  /** `r` is the earliest qualifying date on or after `d`. */
  predicate IsNextWorkingDay(d: Date, r: Date, currency: Currency, isHoliday: HolidaySource) {
    && d <= r
    && Qualifies(r, currency, isHoliday)
    && forall k :: d <= k < r ==> !Qualifies(k, currency, isHoliday)
  }

  /** `r` is the latest qualifying date on or before `d`. */
  predicate IsPreviousWorkingDay(d: Date, r: Date, currency: Currency, isHoliday: HolidaySource) {
    && r <= d
    && Qualifies(r, currency, isHoliday)
    && forall k :: r < k <= d ==> !Qualifies(k, currency, isHoliday)
  }

  /** Advances day by day until a qualifying date. The loop terminates only if
      such a date exists, which the caller must guarantee. */
  method NextWorkingDay(d: Date, currency: Currency, isHoliday: HolidaySource) returns (r: Date)
    requires exists w :: w >= d && Qualifies(w, currency, isHoliday)
    ensures IsNextWorkingDay(d, r, currency, isHoliday)
  {
    ghost var w :| w >= d && Qualifies(w, currency, isHoliday);
    r := d;
    while !IsWorkday(DayOfWeek(r), currency) || isHoliday(r, currency)
      invariant d <= r <= w
      invariant forall k :: d <= k < r ==> !Qualifies(k, currency, isHoliday)
      decreases w - r
    {
      r := r + 1;
    }
  }

  /** Retreats day by day until a qualifying date, which the caller must
      guarantee exists. */
  method PreviousWorkingDay(d: Date, currency: Currency, isHoliday: HolidaySource) returns (r: Date)
    requires exists w :: w <= d && Qualifies(w, currency, isHoliday)
    ensures IsPreviousWorkingDay(d, r, currency, isHoliday)
  {
    ghost var w :| w <= d && Qualifies(w, currency, isHoliday);
    r := d;
    while !IsWorkday(DayOfWeek(r), currency) || isHoliday(r, currency)
      invariant w <= r <= d
      invariant forall k :: r < k <= d ==> !Qualifies(k, currency, isHoliday)
      decreases r - w
    {
      r := r - 1;
    }
  }

  /** The next working day is unique, and a qualifying date is its own. */
  lemma NextWorkingDayUnique(d: Date, r1: Date, r2: Date, currency: Currency, isHoliday: HolidaySource)
    requires IsNextWorkingDay(d, r1, currency, isHoliday) && IsNextWorkingDay(d, r2, currency, isHoliday)
    ensures r1 == r2
    ensures Qualifies(d, currency, isHoliday) ==> r1 == d
  {
  }

  /** The previous working day is unique, and a qualifying date is its own. */
  lemma PreviousWorkingDayUnique(d: Date, r1: Date, r2: Date, currency: Currency, isHoliday: HolidaySource)
    requires IsPreviousWorkingDay(d, r1, currency, isHoliday) && IsPreviousWorkingDay(d, r2, currency, isHoliday)
    ensures r1 == r2
    ensures Qualifies(d, currency, isHoliday) ==> r1 == d
  {
  }

  /** Adjusting an already adjusted date changes nothing. */
  lemma AdjustmentIdempotent(d: Date, r: Date, currency: Currency, isHoliday: HolidaySource)
    requires IsNextWorkingDay(d, r, currency, isHoliday) || IsPreviousWorkingDay(d, r, currency, isHoliday)
    ensures IsNextWorkingDay(r, r, currency, isHoliday) && IsPreviousWorkingDay(r, r, currency, isHoliday)
  {
  }

  /** The day of the week advances by one each day, wrapping Sunday to Monday. */
  lemma {:induction false} DayOfWeekSuccessor(d: Date)
    ensures DayOfWeek(d + 1) == if DayOfWeek(d) == 7 then 1 else DayOfWeek(d) + 1
  {
    var q := (d + 3) / 7;
    var m := (d + 3) % 7;
    assert d + 3 == 7 * q + m;
    if m == 6 {
      assert d + 4 == 7 * (q + 1) + 0;
    } else {
      assert d + 4 == 7 * q + (m + 1);
    }
  }

  /** Without holidays, a working day is at most two days away in either
      direction, so both adjustments terminate. */
  lemma WeekendIsShort(d: Date, currency: Currency)
    ensures exists w :: d <= w <= d + 2 && Qualifies(w, currency, NoHolidays())
    ensures exists w :: d - 2 <= w <= d && Qualifies(w, currency, NoHolidays())
  {
    var none := NoHolidays();
    DayOfWeekSuccessor(d);
    DayOfWeekSuccessor(d + 1);
    DayOfWeekSuccessor(d - 1);
    DayOfWeekSuccessor(d - 2);
    if DayOfWeek(d) < 6 {
      assert Qualifies(d, currency, none);
    } else if DayOfWeek(d) == 6 {
      assert Qualifies(d + 2, currency, none);
    } else {
      assert Qualifies(d + 1, currency, none);
    }
    if DayOfWeek(d) < 6 {
      assert Qualifies(d, currency, none);
    } else if DayOfWeek(d) == 6 {
      assert Qualifies(d - 1, currency, none);
    } else {
      assert Qualifies(d - 2, currency, none);
    }
  }

  /** Without holidays, the next working day is the input itself on a weekday,
      and otherwise the following Monday. */
  lemma NextWorkingDayWithoutHolidays(d: Date, r: Date, currency: Currency)
    requires IsNextWorkingDay(d, r, currency, NoHolidays())
    ensures DayOfWeek(d) <= 5 ==> r == d
    ensures DayOfWeek(d) == 6 ==> r == d + 2
    ensures DayOfWeek(d) == 7 ==> r == d + 1
    ensures DayOfWeek(r) == if DayOfWeek(d) <= 5 then DayOfWeek(d) else 1
  {
    var none := NoHolidays();
    DayOfWeekSuccessor(d);
    DayOfWeekSuccessor(d + 1);
    assert DayOfWeek(d) <= 5 ==> Qualifies(d, currency, none);
    assert DayOfWeek(d) == 6 ==> !Qualifies(d + 1, currency, none) && Qualifies(d + 2, currency, none);
    assert DayOfWeek(d) == 7 ==> Qualifies(d + 1, currency, none);
  }

  /** Without holidays, the previous working day is the input itself on a
      weekday, and otherwise the preceding Friday. */
  lemma PreviousWorkingDayWithoutHolidays(d: Date, r: Date, currency: Currency)
    requires IsPreviousWorkingDay(d, r, currency, NoHolidays())
    ensures DayOfWeek(d) <= 5 ==> r == d
    ensures DayOfWeek(d) == 6 ==> r == d - 1
    ensures DayOfWeek(d) == 7 ==> r == d - 2
    ensures DayOfWeek(r) == if DayOfWeek(d) <= 5 then DayOfWeek(d) else 5
  {
    var none := NoHolidays();
    DayOfWeekSuccessor(d - 1);
    DayOfWeekSuccessor(d - 2);
    assert DayOfWeek(d) <= 5 ==> Qualifies(d, currency, none);
    assert DayOfWeek(d) == 6 ==> Qualifies(d - 1, currency, none);
    assert DayOfWeek(d) == 7 ==> !Qualifies(d - 1, currency, none) && Qualifies(d - 2, currency, none);
  }
}

=== FILE: wrappers.dfy ===
/** Failure-compatible result types shared by every module: `Option` stands for
    a Java reference that may be null, `Result` for a call that either returns a
    value or throws. */
module Wrappers {

  datatype Option<+T> = None | Some(value: T) {
    /** The value, or `default` when this is None. */
    function GetOr(default: T): T {
      match this
      case Some(v) => v
      case None => default
    }
  }

  datatype Result<+R, +E> = Success(value: R) | Failure(error: E) {
    predicate IsFailure() {
      Failure?
    }

    function PropagateFailure<U>(): Result<U, E>
      requires Failure?
    {
      Failure(error)
    }

    function Extract(): R
      requires Success?
    {
      value
    }
  }
}
